=== FILE: README.md ===
# ZnWP Taxonomy Color and Image — a Dafny model

`ZnWP_Taxonomy_Color_Image` is a WordPress plugin that lets other plugins ("registrants") add
three fields to their taxonomies: a background color, a foreground color and an image. A
registrant hooks a callback onto the action `znwp_taxonomy_color_image_run`. The callback
returns a configuration `{plugin_name, taxonomy}`.

During `init` the plugin object does four things:
- it installs three media-uploader filters;
- it checks every registrant's configuration and stores it under its plugin name;
- it remembers each taxonomy once;
- it binds, for every taxonomy occurrence, seven term-screen hooks plus one `save_post_{type}`
  action per post type. The post types come through a per-taxonomy cache, filled from the host's
  `get_taxonomy` on first use.

Term metadata lives in the host's option store. Each record sits under the option name
`"{taxonomy}_term_{term_id}"`. Saving overwrites the submitted fields one by one. Readers merge
the stored record over three empty defaults. The admin screens show:
- the term list with fixed columns and `color`/`image` cells;
- the term form;
- a post metabox with a three-column checkbox grid of the terms.

The model is split into modules:

| module | file | what it holds |
|---|---|---|
| `RegistrantConfig` | `config.dfy` | `check_config` over PHP arrays (`map<string, Value>`) |
| `Hooks` | `hooks.dfy` | the host's hook table as an append-only log of `Binding` values; each closure is a `Handler` that carries its captured taxonomy |
| `Registry` | `registry.dfy` | `init` as functions on a `State` value (the object's fields), the reference definitions of what it must produce, and the lemmas relating them |
| `Plugin` | `plugin.dfy` | the object as a `class` whose methods update its fields in place; each method is proved equal to the `Registry` function for the same step |
| `TermMeta` | `term_meta.dfy` | option keys, the defaults merge, and `helper_save_custom_fields` as a loop over a mutable option store |
| `AdminUi` | `admin_ui.dfy` | columns, the column cells, the term form, the term listings and the metabox grid, reduced to their structure |
| `MediaUploader` | `media.dfy` | the three media filters |
| `Decimal`, `Wrappers` | `decimal.dfy`, `wrappers.dfy` | decimal rendering of term ids; `Option` |

The host is modelled in three ways:
- **As parameters.** `$wp_filter[ACTION_HOOK]` is the sequence of callback results in hook order
  (priority, then insertion). `$_POST['term_meta']` is `data`. `$_GET` and the attachment array
  are maps. The post's current terms and the term list are values.
- **As maps.** `get_taxonomy` is `Host`. The option store is `Options`. The attachment
  thumbnails are `map<string, string>`.
- **As appended state.** `add_action`/`add_filter` append to the `hooks` field.

The ghost field `hostLookups` records every `get_taxonomy` query made through the post-type
cache. The class invariant `Valid()` uses it to state that, through the cache, the host is asked
about each taxonomy at most once. `meta_box` also calls `get_taxonomy` directly for the
taxonomy's label every time it runs; that call is outside the cache and is not logged.

## Behaviour of the code worth knowing

- Bindings are not deduplicated: a taxonomy named by two accepted configurations is bound twice
  (`Registry.RepeatedTaxonomyBindsTwice`). Only the remembered taxonomy list is deduplicated.
- `check_config` accepts a configuration with an empty plugin name or no taxonomy, as long as
  it differs from the defaults (`RegistrantConfig.NamelessConfigAccepted`,
  `RegistrantConfig.ExtraKeyAccepted`).
- The `manage_{taxonomy}_custom_column` filter closure returns the result of `custom_column`,
  which prints and returns nothing. The filter therefore yields null, and any `$out` an earlier
  filter produced is dropped (`AdminUi.CustomColumnFilterDropsOut`).

## Model

| member | source | states |
|---|---|---|
| RegistrantConfig.Merge | znwp_taxonomy_color_image_plugin/ZnWP_Taxonomy_Color_Image.php:541-544 | the merged array has the registrant's keys plus both default keys; registrant values win, and a missing key takes its default |
| RegistrantConfig.CheckConfig | znwp_taxonomy_color_image_plugin/ZnWP_Taxonomy_Color_Image.php:539-555 | rejects exactly when the merge equals the defaults; otherwise keeps every key but `taxonomy` unchanged, turns a string taxonomy into a one-element list, passes a list through, and reads a missing taxonomy as empty |
| RegistrantConfig.CheckConfigRejectsOnlyDefaults | znwp_taxonomy_color_image_plugin/ZnWP_Taxonomy_Color_Image.php:545-547 | a configuration is rejected if and only if it has no other key and each present default key holds its default value |
| RegistrantConfig.NamelessConfigAccepted | znwp_taxonomy_color_image_plugin/ZnWP_Taxonomy_Color_Image.php:539-555 | a configuration with no plugin name but one taxonomy is accepted under the empty name |
| RegistrantConfig.ExtraKeyAccepted | znwp_taxonomy_color_image_plugin/ZnWP_Taxonomy_Color_Image.php:539-555 | any key other than the two defaults is enough to be accepted, and that key is kept |
| Hooks.TermScreenBindings | znwp_taxonomy_color_image_plugin/ZnWP_Taxonomy_Color_Image.php:126-169 | seven bindings per taxonomy, each serving that taxonomy and none a `save_post` action |
| Hooks.MediaUploaderBindings | znwp_taxonomy_color_image_plugin/ZnWP_Taxonomy_Color_Image.php:490-530 | three filters, none of them tied to a taxonomy |
| Hooks.TaxonomyBindingsShape | znwp_taxonomy_color_image_plugin/ZnWP_Taxonomy_Color_Image.php:121-179 | one occurrence adds 7 + (number of post types) bindings; all serve the taxonomy; the first seven are never `save_post`; binding 7+i is `save_post_{type i}` |
| Registry.GetTaxonomies | znwp_taxonomy_color_image_plugin/ZnWP_Taxonomy_Color_Image.php:564-573 | with no name, all remembered taxonomies; with a stored name, that configuration's list; with an unknown name, none |
| Registry.Remember | znwp_taxonomy_color_image_plugin/ZnWP_Taxonomy_Color_Image.php:123 | a taxonomy is added when new and kept in place when known: the old list stays a prefix, the set gains exactly that name, and a duplicate-free list stays duplicate-free |
| Registry.BindTaxonomy | znwp_taxonomy_color_image_plugin/ZnWP_Taxonomy_Color_Image.php:121-179 | one pass of the taxonomy loop: configurations untouched; the taxonomy remembered and cached, an existing cache entry kept and no other entry changed; 7 + (cached post types) bindings appended, all serving that taxonomy |
| Registry.BindAll | znwp_taxonomy_color_image_plugin/ZnWP_Taxonomy_Color_Image.php:121-180 | the taxonomy loop only appends to the remembered taxonomies and the hooks and only adds cache entries: every entry already cached keeps its key and its post types; every looped name ends up remembered and cached |
| Registry.Accept | znwp_taxonomy_color_image_plugin/ZnWP_Taxonomy_Color_Image.php:117-180 | an accepted configuration is stored under its plugin name, replacing any earlier one and leaving other names alone; all its taxonomies are remembered; taxonomies and hooks are only appended to |
| Registry.Register | znwp_taxonomy_color_image_plugin/ZnWP_Taxonomy_Color_Image.php:108-181 | one pass of the registrant loop: a rejected submission changes nothing; an accepted one is stored under its plugin name, or the empty name when it gives none |
| Registry.Run | znwp_taxonomy_color_image_plugin/ZnWP_Taxonomy_Color_Image.php:107-182 | the registrant loop only appends to the remembered taxonomies and the hooks, and never removes a stored plugin name |
| Registry.BindTaxonomyTaxonomies | znwp_taxonomy_color_image_plugin/ZnWP_Taxonomy_Color_Image.php:123 | remembering a taxonomy keeps the list duplicate-free, keeps its prefix, and adds exactly that name |
| Registry.BindTaxonomyKeepsCacheFaithful | znwp_taxonomy_color_image_plugin/ZnWP_Taxonomy_Color_Image.php:121-179 | with a cache that agrees with the host, one taxonomy appends its bindings for the host's post types and the cache keeps agreeing, now holding that taxonomy |
| Registry.BindAllKeepsConfigs | znwp_taxonomy_color_image_plugin/ZnWP_Taxonomy_Color_Image.php:121-180 | the taxonomy loop does not touch the stored configurations |
| Registry.BindAllTaxonomies | znwp_taxonomy_color_image_plugin/ZnWP_Taxonomy_Color_Image.php:121-123 | the taxonomy loop keeps the remembered list duplicate-free, keeps the earlier names in front, and adds exactly the looped names |
| Registry.BindAllHooks | znwp_taxonomy_color_image_plugin/ZnWP_Taxonomy_Color_Image.php:121-180 | the taxonomy loop appends the bindings of every occurrence, in order and not deduplicated; the cache agrees with the host and gains exactly the looped names |
| Registry.OccurrenceHooksCount | znwp_taxonomy_color_image_plugin/ZnWP_Taxonomy_Color_Image.php:126-179 | the number of bindings is seven per occurrence plus one per post type |
| Registry.RejectedSubmissionChangesNothing | znwp_taxonomy_color_image_plugin/ZnWP_Taxonomy_Color_Image.php:112-114 | a rejected configuration leaves configurations, taxonomies, cache and hooks exactly as they were |
| Registry.RunLastWins | znwp_taxonomy_color_image_plugin/ZnWP_Taxonomy_Color_Image.php:108-117 | after `init`, a plugin name maps to the last accepted configuration with that name; a name no accepted configuration uses keeps its earlier entry or stays absent |
| Registry.RegisterTaxonomies | znwp_taxonomy_color_image_plugin/ZnWP_Taxonomy_Color_Image.php:110-123 | one registrant adds the taxonomies it names, if accepted, to the duplicate-free list |
| Registry.RegisterHooks | znwp_taxonomy_color_image_plugin/ZnWP_Taxonomy_Color_Image.php:110-180 | one registrant appends the bindings of the taxonomies it names, if accepted, and caches exactly those taxonomies |
| Registry.RunTaxonomies | znwp_taxonomy_color_image_plugin/ZnWP_Taxonomy_Color_Image.php:107-182 | after `init` each taxonomy is remembered once, earlier ones stay in front, and the set is the union over every accepted configuration, overwritten ones included |
| Registry.RunHooks | znwp_taxonomy_color_image_plugin/ZnWP_Taxonomy_Color_Image.php:96-183 | `init` appends the bindings of every taxonomy occurrence of every accepted configuration, in order; the cache then holds exactly the accepted taxonomies with the host's post types |
| Registry.DemoRegistration | znwp_taxonomy_color_image_plugin/demo.php:11-16 | the demo registrant stores its configuration, remembers `category` and binds its hooks once |
| Registry.RepeatedTaxonomyBindsTwice | znwp_taxonomy_color_image_plugin/ZnWP_Taxonomy_Color_Image.php:121-179 | two registrants naming the same taxonomy get its bindings twice |
| Plugin.MetaBoxOps | znwp_taxonomy_color_image_plugin/ZnWP_Taxonomy_Color_Image.php:286-303 | three host operations per post type, in order: remove the `tagsdiv-{taxonomy}` box, remove the taxonomy's own hierarchical `{taxonomy}div` box, add the grid box whose callback renders the grid over the given terms |
| Plugin.MetaBoxLoop | znwp_taxonomy_color_image_plugin/ZnWP_Taxonomy_Color_Image.php:286-303 | the post-type loop of `meta_box` produces exactly `MetaBoxOps` |
| Plugin.TaxonomyColorImage.constructor | znwp_taxonomy_color_image_plugin/ZnWP_Taxonomy_Color_Image.php:67-86 | a new object has no configurations, taxonomies, cache entries or hooks |
| Plugin.TaxonomyColorImage.GetPostTypesForTaxonomy | znwp_taxonomy_color_image_plugin/ZnWP_Taxonomy_Color_Image.php:581-591 | answers from the cache, or asks the host once and caches the answer (empty for an unknown taxonomy); only that cache entry changes; the host is logged only on a miss |
| Plugin.TaxonomyColorImage.CustomizeMediaUploader | znwp_taxonomy_color_image_plugin/ZnWP_Taxonomy_Color_Image.php:487-531 | appends the three media filters and changes nothing else |
| Plugin.TaxonomyColorImage.Init | znwp_taxonomy_color_image_plugin/ZnWP_Taxonomy_Color_Image.php:96-183 | the new state is `Registry.Run` over the callback results, after the media filters; `Valid()` is kept |
| Plugin.TaxonomyColorImage.RegisterSubmission | znwp_taxonomy_color_image_plugin/ZnWP_Taxonomy_Color_Image.php:108-181 | one pass of the registrant loop equals `Registry.Register` |
| Plugin.TaxonomyColorImage.BindTaxonomies | znwp_taxonomy_color_image_plugin/ZnWP_Taxonomy_Color_Image.php:121-180 | the taxonomy loop equals `Registry.BindAll` |
| Plugin.TaxonomyColorImage.BindTaxonomyHooks | znwp_taxonomy_color_image_plugin/ZnWP_Taxonomy_Color_Image.php:121-179 | one taxonomy's pass equals `Registry.BindTaxonomy`, keeping `Valid()` |
| Plugin.TaxonomyColorImage.AddSavePostHooks | znwp_taxonomy_color_image_plugin/ZnWP_Taxonomy_Color_Image.php:172-179 | appends one `save_post_{type}` action per post type, in order, and changes only the hooks |
| Plugin.TaxonomyColorImage.MetaBox | znwp_taxonomy_color_image_plugin/ZnWP_Taxonomy_Color_Image.php:279-304 | the host operations for the taxonomy's post types, read through the cache; every added box renders the grid over the terms `get_taxonomy_terms` returns as written; only the cache may change |
| Plugin.MetaBoxGridLosesSavedColor | znwp_taxonomy_color_image_plugin/ZnWP_Taxonomy_Color_Image.php:285-298 | after a color is saved for term 7 of `category`, the grid the added metabox renders shows term 7 with no color, while the grid over the corrected listing shows the saved color |
| Plugin.InitFromFresh | znwp_taxonomy_color_image_plugin/znwp_taxonomy_color_image_plugin.php:14-15 | after `init` on a new object: hooks are the media filters then every accepted occurrence's bindings; taxonomies are duplicate-free and equal the accepted ones; through the post-type cache the host was asked once about exactly the accepted taxonomies |
| TermMeta.OptionKey | znwp_taxonomy_color_image_plugin/ZnWP_Taxonomy_Color_Image.php:745 | the option name is the taxonomy, then `_term_`, then decimal digits without a leading zero whose value is the term id |
| Decimal.NatToString | znwp_taxonomy_color_image_plugin/ZnWP_Taxonomy_Color_Image.php:745 | PHP's rendering of the term id inside the option name: at least one digit, no leading zero, and the digits denote exactly the id |
| TermMeta.OptionStore.UpdateOption | znwp_taxonomy_color_image_plugin/ZnWP_Taxonomy_Color_Image.php:750 | `update_option` sets exactly that option and leaves every other one |
| TermMeta.OptionKeyInjective | znwp_taxonomy_color_image_plugin/ZnWP_Taxonomy_Color_Image.php:745 | two different (taxonomy, term id) pairs never share an option name |
| TermMeta.MergedMeta | znwp_taxonomy_color_image_plugin/ZnWP_Taxonomy_Color_Image.php:256 | stored values win over the defaults, and a missing field reads as empty |
| TermMeta.SavedOptions | znwp_taxonomy_color_image_plugin/ZnWP_Taxonomy_Color_Image.php:736-751 | with no `term_meta` the store is unchanged; otherwise only the term's option changes, submitted fields overwrite and the other fields keep their values |
| TermMeta.SaveIdempotent | znwp_taxonomy_color_image_plugin/ZnWP_Taxonomy_Color_Image.php:736-751 | saving the same submission twice equals saving it once |
| TermMeta.SaveLeavesOtherTermsAlone | znwp_taxonomy_color_image_plugin/ZnWP_Taxonomy_Color_Image.php:745-750 | a save changes nothing any other (taxonomy, term) reads |
| TermMeta.SecondSaveWins | znwp_taxonomy_color_image_plugin/ZnWP_Taxonomy_Color_Image.php:746-748 | of two saves, the second wins on shared fields, and fields only the first submitted keep its values |
| TermMeta.HelperSaveCustomFields | znwp_taxonomy_color_image_plugin/ZnWP_Taxonomy_Color_Image.php:736-751 | the field-by-field loop and write-back leave the store equal to `SavedOptions` |
| AdminUi.Columns | znwp_taxonomy_color_image_plugin/ZnWP_Taxonomy_Color_Image.php:231-242 | five distinct columns: name first, slug and posts last, color and image present, whatever the host offered |
| AdminUi.CustomColumn | znwp_taxonomy_color_image_plugin/ZnWP_Taxonomy_Color_Image.php:254-271 | a swatch exactly for `color` and a thumbnail exactly for `image`, with the stored fields or empty; nothing otherwise |
| AdminUi.CustomColumnFilter | znwp_taxonomy_color_image_plugin/ZnWP_Taxonomy_Color_Image.php:156-163 | the filter closure prints what `custom_column` prints and returns null |
| AdminUi.CustomColumnFilterDropsOut | znwp_taxonomy_color_image_plugin/ZnWP_Taxonomy_Color_Image.php:156-163 | for a column the plugin does not render, nothing is printed and an earlier filter's `$out` is replaced by null |
| AdminUi.ImageUrl | znwp_taxonomy_color_image_plugin/ZnWP_Taxonomy_Color_Image.php:471-480 | a non-empty URL only for a record with an `image_id` the host has a thumbnail for, and then that thumbnail's URL |
| AdminUi.CustomFieldInputs | znwp_taxonomy_color_image_plugin/ZnWP_Taxonomy_Color_Image.php:609-726 | the three fields in order, each holding the stored value or empty; the image preview is the stored image id's thumbnail URL, and empty when no image id is stored |
| AdminUi.SaveThenRenderFields | znwp_taxonomy_color_image_plugin/ZnWP_Taxonomy_Color_Image.php:736-751 | after saving a background color, the form shows it, and the other two fields show what they showed before |
| AdminUi.TaxonomyTermsAsWritten | znwp_taxonomy_color_image_plugin/ZnWP_Taxonomy_Color_Image.php:423-438 | one term per host term, in order, keeping the host's id and name; every term carries the record stored under `"{taxonomy}_term_"` |
| AdminUi.TaxonomyTermsAsWrittenLosesSavedColor | znwp_taxonomy_color_image_plugin/ZnWP_Taxonomy_Color_Image.php:432 | a color saved for term 7 of `category` shows as empty in the listing as written, but as saved in the corrected one |
| AdminUi.TaxonomyTerms | znwp_taxonomy_color_image_plugin/ZnWP_Taxonomy_Color_Image.php:415-438 | the host's terms in order, each with its own id and name, and each carrying the three fields read from its own option with empty defaults |
| AdminUi.SaveThenListTerms | znwp_taxonomy_color_image_plugin/ZnWP_Taxonomy_Color_Image.php:423-438 | after a save, the corrected listing shows the submitted fields on that term, and every other term as before |
| AdminUi.TaxonomyTerm | znwp_taxonomy_color_image_plugin/ZnWP_Taxonomy_Color_Image.php:449-463 | a term exactly when the host finds one, with the host's id and name; its record has the three fields, each with the stored value or empty |
| AdminUi.PostTermIds | znwp_taxonomy_color_image_plugin/ZnWP_Taxonomy_Color_Image.php:394-412 | the ids of the post's terms, or none when the host answers with an error |
| AdminUi.TermCell | znwp_taxonomy_color_image_plugin/ZnWP_Taxonomy_Color_Image.php:337-355 | a cell named after the taxonomy, with the term's id and name, checked exactly for a current term, showing the merged colors and the thumbnail of the term's `image_id` |
| AdminUi.TermCells | znwp_taxonomy_color_image_plugin/ZnWP_Taxonomy_Color_Image.php:336-358 | one cell per term, in input order |
| AdminUi.GenerateFormHtml | znwp_taxonomy_color_image_plugin/ZnWP_Taxonomy_Color_Image.php:318-363 | the loop with its running column count builds exactly `FormHtml` |
| AdminUi.GridPieceContents | znwp_taxonomy_color_image_plugin/ZnWP_Taxonomy_Color_Image.php:339-357 | the markup of the term at index i holds its cell once; it starts with a row open exactly when i mod 3 = 0, ends with a row close exactly when i mod 3 = 2, and the cell comes right after the open or first |
| AdminUi.GridRowCounts | znwp_taxonomy_color_image_plugin/ZnWP_Taxonomy_Color_Image.php:335-360 | n cells open ceil(n/3) rows and close floor(n/3); the counts agree exactly when n is a multiple of 3 |
| AdminUi.GridCellsInOrder | znwp_taxonomy_color_image_plugin/ZnWP_Taxonomy_Color_Image.php:335-360 | the grid holds exactly the given cells, in order |
| AdminUi.FormHtmlShape | znwp_taxonomy_color_image_plugin/ZnWP_Taxonomy_Color_Image.php:330-362 | the table's cells are the terms' cells in input order, with ceil(n/3) row opens and floor(n/3) row closes; term i's cell sits at position `CellPosition(i) + 1`, right after a row open exactly when i mod 3 = 0 and right before a row close exactly when i mod 3 = 2 |
| AdminUi.GridCellAt | znwp_taxonomy_color_image_plugin/ZnWP_Taxonomy_Color_Image.php:336-359 | in the grid, cell i sits at `CellPosition(i)`; a row opens right before it exactly when i mod 3 = 0, and a row closes right after it exactly when i mod 3 = 2 |
| AdminUi.GridLength | znwp_taxonomy_color_image_plugin/ZnWP_Taxonomy_Color_Image.php:336-359 | the grid of n cells has n + ceil(n/3) + floor(n/3) entries and ends with a row close when 3 divides n, otherwise with the last cell |
| MediaUploader.FilterMediaUploadTabs | znwp_taxonomy_color_image_plugin/ZnWP_Taxonomy_Color_Image.php:490-498 | in the plugin's context `type_url` and `gallery` are removed; otherwise the tabs pass through; no tab is ever added or changed |
| MediaUploader.FilterMediaUploadTabsIdempotent | znwp_taxonomy_color_image_plugin/ZnWP_Taxonomy_Color_Image.php:490-498 | filtering twice for the same request equals filtering once |
| MediaUploader.FilterAttachmentFields | znwp_taxonomy_color_image_plugin/ZnWP_Taxonomy_Color_Image.php:500-511 | in the plugin's context the form gains the "Use Image" row and the hidden context field, and the other fields are kept; otherwise nothing changes |
| MediaUploader.MediaSendToEditorAsWritten | znwp_taxonomy_color_image_plugin/ZnWP_Taxonomy_Color_Image.php:513-530 | the image goes back to the picker exactly in the plugin's context, with the request's send id and the attachment's `url` (empty when absent); in any other context the result is null |
| MediaUploader.MediaSendToEditorAsWrittenDropsHtml | znwp_taxonomy_color_image_plugin/ZnWP_Taxonomy_Color_Image.php:513-530 | an ordinary insertion loses its html with the filter as written, and keeps it with the corrected filter |
| MediaUploader.MediaSendToEditor | znwp_taxonomy_color_image_plugin/ZnWP_Taxonomy_Color_Image.php:513-530 | as written in the plugin's context; every other context gets the html back unchanged |

## Left out

- Exact markup is not modelled: HTML and inline JavaScript text, labels, hints, the image style,
  and the `(100 / 3) . '%'` column width. Only the structure is modelled: rows, cells, which
  fields appear, and the values they show.
- `__()` translation is not modelled; labels pass through untranslated.
- `helper_custom_fields`' `dropdown` and `multicheckbox` branches are not modelled. Its only
  caller, `custom_fields`, passes two color fields and one image field. The color fields go
  through the generic input branch, which `ColorInput` models; the image field is `ImagePicker`.
- AdminUi.CustomFieldInputs: does not model the upload URL of the image picker's button.
  It is built by the host calls `add_thickbox`, `get_upload_iframe_src` and `add_query_arg`.
- `save_post_taxonomy_terms` is not modelled. It is a single host call (`wp_set_object_terms`)
  on `$_POST[$taxonomy]`, and the model cannot see the host.
- The `media_send_to_editor` echo-then-`exit` is modelled as the `HandBackToPicker` outcome.
  Ending the request is not modelled.
- AdminUi.PostTermIds: keeps only the term ids of `get_post_taxonomy_terms`. Its attached
  `term_meta` uses the same undefined key as `get_taxonomy_terms`, and its only caller reads
  nothing but the ids.
- AdminUi.TaxonomyTerms, AdminUi.TaxonomyTermsAsWritten: keep the host's term list as a sequence. PHP indexes the result by term
  id, so a duplicate id from the host would collapse to one entry; the host is assumed to return
  distinct ids.
- AdminUi.GenerateFormHtml: takes the terms and the post's current term ids as parameters.
  Defaulting `$post_id` to `global $post` and querying terms when none are passed are host
  lookups.
- Registry.Register: requires a string `plugin_name` whenever one is given (`NamedByString`).
- RegistrantConfig.CheckConfig: takes the callback's result as a string-keyed array, so a callback that returns something else (null, say, when it forgets its `return`) is outside the model. In the code, under PHP 7 `array_merge` warns and yields null there. Null differs from the defaults, so the submission is accepted: `init` stores null under the name `""`, overwriting a nameless registrant's config, and `get_taxonomies(null)` returns every taxonomy remembered so far, so all of them are bound again. Under PHP 8 `array_merge` throws and `init` stops part way. `Registry.Register` and `Plugin.TaxonomyColorImage.Init` inherit this gap.
  A list there would be an illegal array offset in PHP; values other than strings and lists of
  strings are not modelled.
- PHP loose `==` is modelled only for the values above, where it is structural equality.
  Numeric-string array keys (which PHP turns into integers) are not modelled.
- The order of the upload tabs is not modelled, because they are kept as a map.
- MediaUploader.FilterAttachmentFields: keeps the attachment form fields as a map, so it does not
  capture that PHP appends `buttons` and `context` after the existing fields.
- How the host runs bindings (priority order, accepted-argument counts) is not modelled. The
  model records the priority and argument count of each binding as given.
- `$wp_filter`, `$_POST`, `$_GET` and `global $post` are not read as globals. Each becomes a
  parameter.
- `get_taxonomy`, the option store and attachment thumbnails are modelled as maps, not as host
  calls.

## Findings

| source | as written | input that shows it | evidently intended | confidence | as-written member | corrected member |
|---|---|---|---|---|---|---|
| znwp_taxonomy_color_image_plugin/ZnWP_Taxonomy_Color_Image.php:513-530 | the `media_send_to_editor` closure returns nothing when the context is not the plugin's, so the filter yields null | inserting any image into a post outside the plugin's picker (no `context` in the attachment) | return `$html` unchanged in every other context | not executed | MediaUploader.MediaSendToEditorAsWritten, MediaUploader.MediaSendToEditorAsWrittenDropsHtml | MediaUploader.MediaSendToEditor |
| znwp_taxonomy_color_image_plugin/ZnWP_Taxonomy_Color_Image.php:432 | `get_taxonomy_terms` builds the option name from `$term_id`, which is undefined in that method, so every term reads `"{taxonomy}_term_"` | `category` term 7 saved with color `#ffffff`; its listing shows an empty color | use `$term->term_id`, so each term reads its own record | not executed | AdminUi.TaxonomyTermsAsWritten, AdminUi.TaxonomyTermsAsWrittenLosesSavedColor, Plugin.MetaBoxGridLosesSavedColor | AdminUi.TaxonomyTerms, AdminUi.SaveThenListTerms |

=== FILE: admin_ui.dfy ===
/**
 * What the admin screens show: the list columns, the `color`/`image` cells, the three term
 * fields, the terms with their metadata, and the checkbox grid of the post metabox.
 * Markup is reduced to its structure; labels pass through the host's `__()` untranslated.
 */
module AdminUi {
  import opened Wrappers
  import opened TermMeta
  import opened Sequences

  /** A field's stored value, or empty when it was never saved (`isset($m[$f]) ? $m[$f] : ''`). */
  function FieldValue(stored: Meta, field: string): string
  {
    if field in stored then stored[field] else ""
  }

  /**
   * `wp_get_attachment_image_src($id, array(75, 75))[0]`: the URL of the attachment's thumbnail,
   * or empty when the host knows no such attachment (`false[0]` is null).
   */
  function AttachmentUrl(attachments: map<string, string>, imageId: string): string
  {
    if imageId in attachments then attachments[imageId] else ""
  }

  /** `get_taxonomy_term_image_url`: the thumbnail of the record's `image_id`, empty if it has none. */
  function ImageUrl(meta: Meta, attachments: map<string, string>): (url: string)
    ensures url != "" ==> "image_id" in meta && meta["image_id"] in attachments && url == attachments[meta["image_id"]]
    ensures "image_id" in meta && meta["image_id"] in attachments ==> url == attachments[meta["image_id"]]
  {
    if "image_id" in meta then AttachmentUrl(attachments, meta["image_id"]) else ""
  }

  // ---------------------------------------------------------------------------------------------
  // The admin term list.

  predicate DistinctKeys(columns: seq<(string, string)>)
  {
    forall i, j :: 0 <= i < j < |columns| ==> columns[i].0 != columns[j].0
  }

  /**
   * `columns`: the list columns become name, color, image, slug and posts, in that order,
   * whatever the host offered.
   */
  function Columns(offered: seq<(string, string)>): (r: seq<(string, string)>)
    ensures DistinctKeys(r)
    ensures |r| == 5 && r[0].0 == "name" && r[|r| - 2].0 == "slug" && r[|r| - 1].0 == "posts"
    ensures ("color", "Color") in r && ("image", "Image") in r
  {
    [("name", "Name"), ("color", "Color"), ("image", "Image"), ("slug", "Slug"), ("posts", "Posts")]
  }

  /** What `custom_column` prints. */
  datatype ColumnOutput = Swatch(background: string, color: string) | Thumbnail(src: string) | NoOutput

  /**
   * `custom_column`: the `color` column shows a swatch in the term's colors and the `image` column
   * its thumbnail, each field read from the stored record with empty defaults; any other column
   * gets nothing.
   */
  function CustomColumn(options: Options, taxonomy: string, columnName: string, termId: nat,
                        attachments: map<string, string>): (r: ColumnOutput)
    ensures r.Swatch? <==> columnName == "color"
    ensures r.Thumbnail? <==> columnName == "image"
    ensures var stored := StoredMeta(options, OptionKey(taxonomy, termId));
      r.Swatch? ==> r.background == FieldValue(stored, "background_color") && r.color == FieldValue(stored, "color")
    ensures var stored := StoredMeta(options, OptionKey(taxonomy, termId));
      r.Thumbnail? ==> r.src == AttachmentUrl(attachments, FieldValue(stored, "image_id"))
  {
    var meta := MergedMeta(StoredMeta(options, OptionKey(taxonomy, termId)));
    if columnName == "color" then Swatch(meta["background_color"], meta["color"])
    else if columnName == "image" then Thumbnail(ImageUrl(meta, attachments))
    else NoOutput
  }

  /**
   * What the `manage_{taxonomy}_custom_column` filter closure does: `custom_column` prints its
   * output, and the closure returns that method's missing return value, so the filter yields null
   * and whatever `$out` an earlier filter produced is dropped.
   */
  datatype ColumnFilterOutcome = ColumnFilterOutcome(printed: ColumnOutput, returned: Option<string>)

  function CustomColumnFilter(out: string, options: Options, taxonomy: string, columnName: string, termId: nat,
                              attachments: map<string, string>): (r: ColumnFilterOutcome)
    ensures r.printed == CustomColumn(options, taxonomy, columnName, termId, attachments)
    ensures r.returned.None?
  {
    ColumnFilterOutcome(CustomColumn(options, taxonomy, columnName, termId, attachments), None)
  }

  /** For a column the plugin does not render, an earlier filter's `$out` is replaced by null and nothing is printed. */
  lemma CustomColumnFilterDropsOut(out: string, options: Options, taxonomy: string, columnName: string, termId: nat,
                                   attachments: map<string, string>)
    requires columnName != "color" && columnName != "image"
    ensures CustomColumnFilter(out, options, taxonomy, columnName, termId, attachments) == ColumnFilterOutcome(NoOutput, None)
  {
  }

  // ---------------------------------------------------------------------------------------------
  // The add/edit term form.

  /** One field of the term form: a color input, or the image picker with its hidden id and preview. */
  datatype FieldInput = ColorInput(field: string, value: string) | ImagePicker(field: string, value: string, src: string)

  /**
   * `custom_fields` through `helper_custom_fields`: background color and foreground color as
   * color inputs, then the image picker, each pre-filled with the stored value or empty.
   */
  function CustomFieldInputs(options: Options, taxonomy: string, termId: nat,
                             attachments: map<string, string>): (r: seq<FieldInput>)
    ensures |r| == |FieldNames|
    ensures forall i :: 0 <= i < |r| ==> r[i].field == FieldNames[i]
    ensures forall i :: 0 <= i < |r| ==>
      r[i].value == MergedMeta(StoredMeta(options, OptionKey(taxonomy, termId)))[FieldNames[i]]
    ensures r[2].ImagePicker? && (r[2].src != "" ==> "image_id" in StoredMeta(options, OptionKey(taxonomy, termId)))
    ensures var stored := StoredMeta(options, OptionKey(taxonomy, termId));
      r[2].src == if "image_id" in stored then AttachmentUrl(attachments, stored["image_id"]) else ""
  {
    var stored := StoredMeta(options, OptionKey(taxonomy, termId));
    [ ColorInput("background_color", FieldValue(stored, "background_color")),
      ColorInput("color", FieldValue(stored, "color")),
      ImagePicker("image_id", FieldValue(stored, "image_id"),
                  if "image_id" in stored then AttachmentUrl(attachments, stored["image_id"]) else "") ]
  }

  /**
   * Saving only a background color shows that color in the form afterwards, and leaves the
   * foreground color and the image as they were (or empty).
   */
  lemma SaveThenRenderFields(options: Options, taxonomy: string, termId: nat, background: string,
                             attachments: map<string, string>)
    ensures var after := SavedOptions(options, taxonomy, termId, Some(map["background_color" := background]));
      var before := CustomFieldInputs(options, taxonomy, termId, attachments);
      var shown := CustomFieldInputs(after, taxonomy, termId, attachments);
      && shown[0].value == background
      && shown[1] == before[1]
      && shown[2] == before[2]
  {
    var key := OptionKey(taxonomy, termId);
    var after := SavedOptions(options, taxonomy, termId, Some(map["background_color" := background]));
    assert "color" in StoredMeta(after, key) <==> "color" in StoredMeta(options, key);
    assert "image_id" in StoredMeta(after, key) <==> "image_id" in StoredMeta(options, key);
  }

  // ---------------------------------------------------------------------------------------------
  // Terms with their metadata.

  /** A term as the host's `get_terms` / `get_term` / `wp_get_object_terms` report it. */
  datatype HostTerm = HostTerm(termId: nat, name: string)

  /** A term with the `term_meta` property the plugin attaches. */
  datatype Term = Term(termId: nat, name: string, termMeta: Meta)

  /**
   * `get_taxonomy_terms` as written: the option name is built from an undefined variable, so
   * every term reads the record "{taxonomy}_term_" instead of its own.
   */
  function TaxonomyTermsAsWritten(options: Options, taxonomy: string, hostTerms: seq<HostTerm>): (r: seq<Term>)
    ensures |r| == |hostTerms|
    ensures forall i :: 0 <= i < |r| ==>
      r[i].termId == hostTerms[i].termId && r[i].name == hostTerms[i].name
      && r[i].termMeta == MergedMeta(StoredMeta(options, taxonomy + Separator))
  {
    seq(|hostTerms|, i requires 0 <= i < |hostTerms| =>
      Term(hostTerms[i].termId, hostTerms[i].name, MergedMeta(StoredMeta(options, taxonomy + Separator))))
  }

  /** `get_taxonomy_terms` as evidently intended: each term carries its own record. */
  function TaxonomyTerms(options: Options, taxonomy: string, hostTerms: seq<HostTerm>): (r: seq<Term>)
    ensures |r| == |hostTerms|
    ensures forall i :: 0 <= i < |r| ==> r[i].termId == hostTerms[i].termId && r[i].name == hostTerms[i].name
    ensures forall i :: 0 <= i < |r| ==> FieldDefaults.Keys <= r[i].termMeta.Keys
    ensures forall i, f :: 0 <= i < |r| && f in FieldDefaults ==>
      r[i].termMeta[f] == FieldValue(StoredMeta(options, OptionKey(taxonomy, hostTerms[i].termId)), f)
  {
    seq(|hostTerms|, i requires 0 <= i < |hostTerms| =>
      Term(hostTerms[i].termId, hostTerms[i].name,
           MergedMeta(StoredMeta(options, OptionKey(taxonomy, hostTerms[i].termId)))))
  }

  /** A color saved for term 7 of `category` is not what the as-written listing shows for term 7. */
  lemma TaxonomyTermsAsWrittenLosesSavedColor()
    ensures var options := SavedOptions(map[], "category", 7, Some(map["color" := "#ffffff"]));
      var hostTerms := [HostTerm(7, "News")];
      && TaxonomyTermsAsWritten(options, "category", hostTerms)[0].termMeta["color"] == ""
      && TaxonomyTerms(options, "category", hostTerms)[0].termMeta["color"] == "#ffffff"
  {
    var key := OptionKey("category", 7);
    assert key == "category_term_7";
    var options := SavedOptions(map[], "category", 7, Some(map["color" := "#ffffff"]));
    assert StoredMeta(options, key)["color"] == "#ffffff";
    assert "category" + Separator != key;
    assert StoredMeta(options, "category" + Separator) == map[];
  }

  /**
   * With the intended key, the listing shows every field just saved for a term on that term,
   * and every other term of the listing shows what it showed before.
   */
  lemma {:induction false} SaveThenListTerms(options: Options, taxonomy: string, termId: nat, submitted: Meta,
                                             hostTerms: seq<HostTerm>)
    ensures var before := TaxonomyTerms(options, taxonomy, hostTerms);
      var after := TaxonomyTerms(SavedOptions(options, taxonomy, termId, Some(submitted)), taxonomy, hostTerms);
      forall i :: 0 <= i < |hostTerms| ==>
        if hostTerms[i].termId == termId
        then forall f :: f in submitted ==> after[i].termMeta[f] == submitted[f]
        else after[i].termMeta == before[i].termMeta
  {
    var saved := SavedOptions(options, taxonomy, termId, Some(submitted));
    forall i | 0 <= i < |hostTerms| && hostTerms[i].termId != termId
      ensures TaxonomyTerms(saved, taxonomy, hostTerms)[i].termMeta == TaxonomyTerms(options, taxonomy, hostTerms)[i].termMeta
    {
      SaveLeavesOtherTermsAlone(options, taxonomy, termId, Some(submitted), taxonomy, hostTerms[i].termId);
    }
  }

  /** `get_taxonomy_term`: the term with its own record, or `None` when the host finds no such term. */
  function TaxonomyTerm(options: Options, taxonomy: string, termId: nat, found: Option<HostTerm>): (r: Option<Term>)
    ensures r.Some? <==> found.Some?
    ensures r.Some? ==> r.value.termId == found.value.termId && r.value.name == found.value.name
    ensures r.Some? ==> FieldDefaults.Keys <= r.value.termMeta.Keys
    ensures r.Some? ==> forall f :: f in FieldDefaults ==>
      r.value.termMeta[f] == FieldValue(StoredMeta(options, OptionKey(taxonomy, termId)), f)
  {
    match found
    case None => None
    case Some(t) => Some(Term(t.termId, t.name, MergedMeta(StoredMeta(options, OptionKey(taxonomy, termId)))))
  }

  /**
   * The term ids `get_post_taxonomy_terms` indexes its result by: the post's terms, or none when
   * the host answers with an error.
   */
  function PostTermIds(found: Option<seq<HostTerm>>): (ids: set<nat>)
    ensures found.None? ==> ids == {}
    ensures found.Some? ==> forall t :: t in found.value ==> t.termId in ids
    ensures found.Some? ==> forall id :: id in ids ==> exists t :: t in found.value && t.termId == id
  {
    match found
    case None => {}
    case Some(ts) => set t | t in ts :: t.termId
  }

  // ---------------------------------------------------------------------------------------------
  // The metabox grid of `generate_form_html`.

  /** The structure of the generated table: rows, and one cell per term. */
  datatype Markup =
    | TableOpen
    | RowOpen
    | Cell(inputName: string, termId: nat, checked: bool, background: string, color: string, text: string, imageSrc: string)
    | RowClose
    | TableClose

  const Cols := 3

  /** The cell of one term: a checkbox named after the taxonomy, its colors, name and thumbnail. */
  function TermCell(taxonomy: string, term: Term, current: set<nat>, attachments: map<string, string>): (cell: Markup)
    ensures cell.Cell? && cell.inputName == taxonomy && cell.termId == term.termId && cell.text == term.name
    ensures cell.checked <==> term.termId in current
    ensures cell.background == FieldValue(term.termMeta, "background_color") && cell.color == FieldValue(term.termMeta, "color")
    ensures cell.imageSrc == AttachmentUrl(attachments, FieldValue(term.termMeta, "image_id"))
  {
    var meta := MergedMeta(term.termMeta);
    Cell(taxonomy, term.termId, term.termId in current, meta["background_color"], meta["color"], term.name,
         ImageUrl(meta, attachments))
  }

  /** The markup around the term at position `index`: a row opens before every third and closes after. */
  function GridPiece(index: nat, cell: Markup): seq<Markup>
  {
    (if index % Cols == 0 then [RowOpen] else []) + [cell] + (if index % Cols == Cols - 1 then [RowClose] else [])
  }

  /** The cells of `terms`, in order. */
  function TermCells(taxonomy: string, terms: seq<Term>, current: set<nat>, attachments: map<string, string>)
    : (cells: seq<Markup>)
    ensures |cells| == |terms|
    ensures forall i :: 0 <= i < |terms| ==> cells[i] == TermCell(taxonomy, terms[i], current, attachments)
  {
    seq(|terms|, i requires 0 <= i < |terms| => TermCell(taxonomy, terms[i], current, attachments))
  }

  /** The table body around a sequence of cells, in order. */
  function Grid(cells: seq<Markup>): seq<Markup>
    decreases |cells|
  {
    if cells == [] then [] else Grid(cells[..|cells| - 1]) + GridPiece(|cells| - 1, cells[|cells| - 1])
  }

  /** Extending the cells by one extends the grid by that cell's markup. */
  lemma GridStep(cells: seq<Markup>, n: nat)
    requires n < |cells|
    ensures Grid(cells[..n + 1]) == Grid(cells[..n]) + GridPiece(n, cells[n])
  {
    assert cells[..n + 1][..n] == cells[..n];
  }

  function FormHtml(taxonomy: string, terms: seq<Term>, current: set<nat>, attachments: map<string, string>): seq<Markup>
  {
    [TableOpen] + Grid(TermCells(taxonomy, terms, current, attachments)) + [TableClose]
  }

  /**
   * `generate_form_html` with the terms and the post's current term ids already looked up:
   * the table built cell by cell with a running column count.
   */
  method GenerateFormHtml(taxonomy: string, terms: seq<Term>, current: set<nat>, attachments: map<string, string>)
    returns (html: seq<Markup>)
    ensures html == FormHtml(taxonomy, terms, current, attachments)
  {
    ghost var cells := TermCells(taxonomy, terms, current, attachments);
    ghost var body: seq<Markup> := [];
    html := [TableOpen];
    var colCnt := 0;
    while colCnt < |terms|
      invariant 0 <= colCnt <= |terms|
      invariant body == Grid(cells[..colCnt])
      invariant html == [TableOpen] + body
    {
      var cell := TermCell(taxonomy, terms[colCnt], current, attachments);
      var rowOpen := if colCnt % Cols == 0 then [RowOpen] else [];
      var rowClose := if colCnt % Cols == Cols - 1 then [RowClose] else [];
      var piece := rowOpen + [cell] + rowClose;
      AppendAssociates([TableOpen], body, piece);
      html := html + piece;
      GridStep(cells, colCnt);
      body := body + piece;
      colCnt := colCnt + 1;
    }
    assert cells[..|terms|] == cells;
    html := html + [TableClose];
  }

  /** How many times `m` occurs in `html`. */
  function Count(html: seq<Markup>, m: Markup): nat
    decreases |html|
  {
    if html == [] then 0 else Count(html[..|html| - 1], m) + (if html[|html| - 1] == m then 1 else 0)
  }

  lemma {:induction false} CountAppend(a: seq<Markup>, b: seq<Markup>, m: Markup)
    ensures Count(a + b, m) == Count(a, m) + Count(b, m)
    decreases |b|
  {
    if b != [] {
      assert (a + b)[..|a + b| - 1] == a + b[..|b| - 1];
      assert (a + b)[|a + b| - 1] == b[|b| - 1];
      CountAppend(a, b[..|b| - 1], m);
    } else {
      assert a + b == a;
    }
  }

  /** The cells of `html`, in order. */
  function Cells(html: seq<Markup>): seq<Markup>
    decreases |html|
  {
    if html == [] then [] else Cells(html[..|html| - 1]) + (if html[|html| - 1].Cell? then [html[|html| - 1]] else [])
  }

  lemma {:induction false} CellsAppend(a: seq<Markup>, b: seq<Markup>)
    ensures Cells(a + b) == Cells(a) + Cells(b)
    decreases |b|
  {
    if b != [] {
      assert (a + b)[..|a + b| - 1] == a + b[..|b| - 1];
      assert (a + b)[|a + b| - 1] == b[|b| - 1];
      CellsAppend(a, b[..|b| - 1]);
    } else {
      assert a + b == a;
    }
  }

  /** The cell and the row tags the markup around one term holds, counted. */
  lemma GridPieceCounts(index: nat, cell: Markup)
    requires cell.Cell?
    ensures Cells(GridPiece(index, cell)) == [cell]
    ensures Count(GridPiece(index, cell), RowOpen) == if index % Cols == 0 then 1 else 0
    ensures Count(GridPiece(index, cell), RowClose) == if index % Cols == Cols - 1 then 1 else 0
  {
    var open, close := if index % Cols == 0 then [RowOpen] else [], if index % Cols == Cols - 1 then [RowClose] else [];
    assert GridPiece(index, cell) == (open + [cell]) + close;
    CellsAppend(open + [cell], close);
    CellsAppend(open, [cell]);
    CountAppend(open + [cell], close, RowOpen);
    CountAppend(open, [cell], RowOpen);
    CountAppend(open + [cell], close, RowClose);
    CountAppend(open, [cell], RowClose);
  }

  /** The markup around one term holds its cell once, and opens and closes a row by its position. */
  lemma GridPieceContents(index: nat, cell: Markup)
    requires cell.Cell?
    ensures Cells(GridPiece(index, cell)) == [cell]
    ensures Count(GridPiece(index, cell), RowOpen) == if index % Cols == 0 then 1 else 0
    ensures Count(GridPiece(index, cell), RowClose) == if index % Cols == Cols - 1 then 1 else 0
    ensures var p := GridPiece(index, cell);
      && |p| == 1 + (if index % Cols == 0 then 1 else 0) + (if index % Cols == Cols - 1 then 1 else 0)
      && (p[0] == RowOpen <==> index % Cols == 0)
      && (p[|p| - 1] == RowClose <==> index % Cols == Cols - 1)
      && p[if index % Cols == 0 then 1 else 0] == cell
  {
    GridPieceCounts(index, cell);
  }

  /** Positions 0..n open ceil((n+1)/3) rows and close floor((n+1)/3), which agree exactly on multiples of three. */
  lemma RowArithmetic(n: nat)
    ensures (n + 3) / 3 == (n + 2) / 3 + (if n % 3 == 0 then 1 else 0)
    ensures (n + 1) / 3 == n / 3 + (if n % 3 == 2 then 1 else 0)
    ensures (n + 3) / 3 == (n + 1) / 3 <==> (n + 1) % 3 == 0
  {
    var q, r := n / 3, n % 3;
    assert n == 3 * q + r;
    if r == 0 {
      assert (n + 3) / 3 == q + 1 && (n + 2) / 3 == q && (n + 1) / 3 == q;
    } else if r == 1 {
      assert (n + 3) / 3 == q + 1 && (n + 2) / 3 == q + 1 && (n + 1) / 3 == q;
    } else {
      assert (n + 3) / 3 == q + 1 && (n + 2) / 3 == q + 1 && (n + 1) / 3 == q + 1;
    }
  }

  /**
   * For n cells the grid opens ceil(n/3) rows and closes floor(n/3): the last row is left open
   * exactly when n is not a multiple of three.
   */
  lemma {:induction false} GridRowCounts(cells: seq<Markup>)
    requires forall i :: 0 <= i < |cells| ==> cells[i].Cell?
    ensures Count(Grid(cells), RowOpen) == (|cells| + 2) / 3
    ensures Count(Grid(cells), RowClose) == |cells| / 3
    ensures Count(Grid(cells), RowOpen) == Count(Grid(cells), RowClose) <==> |cells| % 3 == 0
    decreases |cells|
  {
    if cells != [] {
      var n := |cells| - 1;
      GridRowCounts(cells[..n]);
      GridPieceCounts(n, cells[n]);
      assert Grid(cells) == Grid(cells[..n]) + GridPiece(n, cells[n]);
      CountAppend(Grid(cells[..n]), GridPiece(n, cells[n]), RowOpen);
      CountAppend(Grid(cells[..n]), GridPiece(n, cells[n]), RowClose);
      RowArithmetic(n);
    }
  }

  /** The grid holds exactly the given cells, in order. */
  lemma {:induction false} GridCellsInOrder(cells: seq<Markup>)
    requires forall i :: 0 <= i < |cells| ==> cells[i].Cell?
    ensures Cells(Grid(cells)) == cells
    decreases |cells|
  {
    if cells != [] {
      var n := |cells| - 1;
      var prefix := cells[..n];
      GridCellsInOrder(prefix);
      GridPieceCounts(n, cells[n]);
      assert Grid(cells) == Grid(prefix) + GridPiece(n, cells[n]);
      CellsAppend(Grid(prefix), GridPiece(n, cells[n]));
      LastSplit(cells);
    }
  }

  /**
   * Where the cell of term `i` sits in the grid: after the `i` earlier cells, the rows opened up to
   * and including its own, and the rows closed before it.
   */
  function CellPosition(i: nat): nat
  {
    i + (i + 3) / 3 + i / 3
  }

  /** The grid of `n` cells has `n` cells and ceil(n/3) + floor(n/3) row tags, and ends in the last row's close or its last cell. */
  lemma {:induction false} GridLength(cells: seq<Markup>)
    ensures |Grid(cells)| == |cells| + (|cells| + 2) / 3 + |cells| / 3
    ensures cells != [] ==> Grid(cells)[|Grid(cells)| - 1] == if |cells| % 3 == 0 then RowClose else cells[|cells| - 1]
    decreases |cells|
  {
    if cells != [] {
      var n := |cells| - 1;
      GridLength(cells[..n]);
      RowArithmetic(n);
      assert Grid(cells) == Grid(cells[..n]) + GridPiece(n, cells[n]);
    }
  }

  /** The layout around one cell: its position, the row it may open before it and the row it may close after it. */
  lemma {:induction false} GridCellAt(cells: seq<Markup>, i: nat)
    requires forall k :: 0 <= k < |cells| ==> cells[k].Cell?
    requires i < |cells|
    ensures CellPosition(i) < |Grid(cells)| && Grid(cells)[CellPosition(i)] == cells[i]
    ensures Grid(cells)[CellPosition(i) - 1] == RowOpen <==> i % 3 == 0
    ensures i % 3 == 2 <==> CellPosition(i) + 1 < |Grid(cells)| && Grid(cells)[CellPosition(i) + 1] == RowClose
    decreases |cells|
  {
    var n := |cells| - 1;
    if i < n {
      var prefix := cells[..n];
      var g, piece := Grid(prefix), GridPiece(n, cells[n]);
      assert Grid(cells) == g + piece;
      GridPieceContents(n, cells[n]);
      GridCellAt(prefix, i);
      assert prefix[i] == cells[i];
      GridCellAfterPrefix(g, piece, CellPosition(i));
    } else {
      GridLastCell(cells);
    }
  }

  /** `GridCellAt` for the last cell, which the last piece of the grid holds. */
  lemma GridLastCell(cells: seq<Markup>)
    requires forall k :: 0 <= k < |cells| ==> cells[k].Cell?
    requires cells != []
    ensures var n := |cells| - 1;
      && CellPosition(n) < |Grid(cells)| && Grid(cells)[CellPosition(n)] == cells[n]
      && (Grid(cells)[CellPosition(n) - 1] == RowOpen <==> n % 3 == 0)
      && (n % 3 == 2 <==> CellPosition(n) + 1 < |Grid(cells)| && Grid(cells)[CellPosition(n) + 1] == RowClose)
  {
    var n := |cells| - 1;
    var prefix := cells[..n];
    var g, piece := Grid(prefix), GridPiece(n, cells[n]);
    assert Grid(cells) == g + piece;
    GridLength(prefix);
    CellPositionStep(n);
    assert CellPosition(n) == |g| + (if n % 3 == 0 then 1 else 0);
    if n % 3 != 0 {
      assert g[|g| - 1] == prefix[n - 1];
    }
    GridCellInPiece(g, piece, n, cells[n]);
  }


  /** Positions inside the earlier grid keep their markup; the one right after it is never a row close. */
  lemma GridCellAfterPrefix(g: seq<Markup>, piece: seq<Markup>, q: nat)
    requires 1 <= q < |g| && piece != [] && piece[0] != RowClose
    ensures (g + piece)[q] == g[q] && (g + piece)[q - 1] == g[q - 1]
    ensures q + 1 < |g + piece|
    ensures (g + piece)[q + 1] == RowClose <==> q + 1 < |g| && g[q + 1] == RowClose
  {
  }

  /** The markup around the newest cell, read through the whole grid. */
  lemma GridCellInPiece(g: seq<Markup>, piece: seq<Markup>, n: nat, cell: Markup)
    requires cell.Cell? && piece == GridPiece(n, cell)
    requires n % 3 != 0 ==> g != [] && g[|g| - 1].Cell?
    ensures var q := |g| + (if n % 3 == 0 then 1 else 0);
      && q < |g + piece| && (g + piece)[q] == cell
      && (q >= 1 && ((g + piece)[q - 1] == RowOpen <==> n % 3 == 0))
      && (n % 3 == 2 <==> q + 1 < |g + piece| && (g + piece)[q + 1] == RowClose)
  {
    GridPieceContents(n, cell);
  }

  /** The cell after the first `n` sits right after their grid, past the row it opens, if any. */
  lemma CellPositionStep(n: nat)
    ensures CellPosition(n) == n + (n + 2) / 3 + n / 3 + (if n % 3 == 0 then 1 else 0)
    ensures (n + 1) + (n + 3) / 3 + (n + 1) / 3
         == n + (n + 2) / 3 + n / 3 + 1 + (if n % 3 == 0 then 1 else 0) + (if n % 3 == 2 then 1 else 0)
    ensures n % 3 != 0 ==> n - 1 >= 0 && (n - 1) % 3 != 2
  {
    RowArithmetic(n);
  }

  /** The table's opening and closing tags hold no cell and no row tag. */
  lemma TableWrapping(body: seq<Markup>)
    ensures Cells([TableOpen] + body + [TableClose]) == Cells(body)
    ensures Count([TableOpen] + body + [TableClose], RowOpen) == Count(body, RowOpen)
    ensures Count([TableOpen] + body + [TableClose], RowClose) == Count(body, RowClose)
  {
    CellsAppend([TableOpen] + body, [TableClose]);
    CellsAppend([TableOpen], body);
    CountAppend([TableOpen] + body, [TableClose], RowOpen);
    CountAppend([TableOpen], body, RowOpen);
    CountAppend([TableOpen] + body, [TableClose], RowClose);
    CountAppend([TableOpen], body, RowClose);
  }

  /** The metabox table holds the terms' cells and nothing else, in input order. */
  lemma FormHtmlCells(taxonomy: string, terms: seq<Term>, current: set<nat>, attachments: map<string, string>)
    ensures Cells(FormHtml(taxonomy, terms, current, attachments)) == TermCells(taxonomy, terms, current, attachments)
  {
    var cells := TermCells(taxonomy, terms, current, attachments);
    GridCellsInOrder(cells);
    TableWrapping(Grid(cells));
  }

  /** Where the term cells and the row tags sit in the metabox table (see `GridCellAt`). */
  lemma FormHtmlLayout(taxonomy: string, terms: seq<Term>, current: set<nat>, attachments: map<string, string>)
    ensures var html := FormHtml(taxonomy, terms, current, attachments);
      forall i :: 0 <= i < |terms| ==>
        && CellPosition(i) + 2 < |html|
        && html[CellPosition(i) + 1] == TermCell(taxonomy, terms[i], current, attachments)
        && (html[CellPosition(i)] == RowOpen <==> i % 3 == 0)
        && (html[CellPosition(i) + 2] == RowClose <==> i % 3 == 2)
  {
    var cells := TermCells(taxonomy, terms, current, attachments);
    forall i | 0 <= i < |terms|
      ensures var html := [TableOpen] + Grid(cells) + [TableClose];
        && CellPosition(i) + 2 < |html|
        && html[CellPosition(i) + 1] == cells[i]
        && (html[CellPosition(i)] == RowOpen <==> i % 3 == 0)
        && (html[CellPosition(i) + 2] == RowClose <==> i % 3 == 2)
    {
      WrappedCellAt(cells, i);
    }
  }

  /** `GridCellAt` read through the table tags, one position further on. */
  lemma WrappedCellAt(cells: seq<Markup>, i: nat)
    requires forall k :: 0 <= k < |cells| ==> cells[k].Cell?
    requires i < |cells|
    ensures var html := [TableOpen] + Grid(cells) + [TableClose];
      && CellPosition(i) + 2 < |html|
      && html[CellPosition(i) + 1] == cells[i]
      && (html[CellPosition(i)] == RowOpen <==> i % 3 == 0)
      && (html[CellPosition(i) + 2] == RowClose <==> i % 3 == 2)
  {
    GridCellAt(cells, i);
    TableWrappingAt(Grid(cells), CellPosition(i));
  }

  /** Inside the table tags, position `q` of the grid is position `q + 1`, and the last position is the closing tag. */
  lemma TableWrappingAt(grid: seq<Markup>, q: nat)
    requires 1 <= q < |grid|
    ensures |[TableOpen] + grid + [TableClose]| == |grid| + 2
    ensures ([TableOpen] + grid + [TableClose])[q + 1] == grid[q]
    ensures ([TableOpen] + grid + [TableClose])[q] == grid[q - 1]
    ensures ([TableOpen] + grid + [TableClose])[q + 2] == if q + 1 < |grid| then grid[q + 1] else TableClose
  {
  }

  /**
   * The metabox table: the cells of the terms in input order (each checked exactly when its term
   * is among the post's current terms), with ceil(n/3) rows opened and floor(n/3) closed; a row
   * opens right before every third term's cell, starting with the first, and closes right after
   * every third.
   */
  lemma FormHtmlShape(taxonomy: string, terms: seq<Term>, current: set<nat>, attachments: map<string, string>)
    ensures Cells(FormHtml(taxonomy, terms, current, attachments)) == TermCells(taxonomy, terms, current, attachments)
    ensures Count(FormHtml(taxonomy, terms, current, attachments), RowOpen) == (|terms| + 2) / 3
    ensures Count(FormHtml(taxonomy, terms, current, attachments), RowClose) == |terms| / 3
    ensures var html := FormHtml(taxonomy, terms, current, attachments);
      forall i :: 0 <= i < |terms| ==>
        && CellPosition(i) + 2 < |html|
        && html[CellPosition(i) + 1] == TermCell(taxonomy, terms[i], current, attachments)
        && (html[CellPosition(i)] == RowOpen <==> i % 3 == 0)
        && (html[CellPosition(i) + 2] == RowClose <==> i % 3 == 2)
  {
    var cells := TermCells(taxonomy, terms, current, attachments);
    FormHtmlCells(taxonomy, terms, current, attachments);
    GridRowCounts(cells);
    TableWrapping(Grid(cells));
    FormHtmlLayout(taxonomy, terms, current, attachments);
  }
}

=== FILE: config.dfy ===
/**
 * The configuration a registrant returns from its `znwp_taxonomy_color_image_run` callback,
 * and the check that merges it over the defaults, rejects it or normalises it.
 */
module RegistrantConfig {
  import opened Wrappers

  /** A PHP array value as registrants use it: a string, or a list of strings. */
  datatype Value = Str(s: string) | List(items: seq<string>)

  /** A PHP associative array with string keys, as returned by a registrant's callback. */
  type RawConfig = map<string, Value>

  const PluginNameKey := "plugin_name"
  const TaxonomyKey := "taxonomy"

  /** `$config_defaults`: an empty plugin name and no taxonomies. */
  const ConfigDefaults: RawConfig := map[PluginNameKey := Str(""), TaxonomyKey := List([])]

  /** An accepted configuration: the plugin name as given, the taxonomy list, and every other key. */
  datatype Config = Config(pluginName: Value, taxonomy: seq<string>, extra: map<string, Value>)
  {
    /** The PHP array this configuration stands for. */
    function AsArray(): map<string, Value>
    {
      extra[PluginNameKey := pluginName][TaxonomyKey := List(taxonomy)]
    }
  }

  /** `array_merge($config_defaults, $config)`: keys of `raw` win, missing keys take their default. */
  function Merge(raw: RawConfig): (merged: RawConfig)
    ensures merged.Keys == raw.Keys + {PluginNameKey, TaxonomyKey}
    ensures forall k :: k in raw ==> merged[k] == raw[k]
    ensures PluginNameKey !in raw ==> merged[PluginNameKey] == Str("")
    ensures TaxonomyKey !in raw ==> merged[TaxonomyKey] == List([])
  {
    ConfigDefaults + raw
  }

  /**
   * `check_config`: `None` (PHP's `false`) when the merged configuration equals the defaults;
   * otherwise the merged configuration with a string taxonomy turned into a one-element list.
   */
  function CheckConfig(raw: RawConfig): (r: Option<Config>)
    ensures r.None? <==> Merge(raw) == ConfigDefaults
    ensures r.Some? ==> r.value.AsArray().Keys == raw.Keys + {PluginNameKey, TaxonomyKey}
    ensures r.Some? ==> forall k :: k in raw && k != TaxonomyKey ==> r.value.AsArray()[k] == raw[k]
    ensures r.Some? ==> r.value.pluginName == (if PluginNameKey in raw then raw[PluginNameKey] else Str(""))
    ensures r.Some? && TaxonomyKey !in raw ==> r.value.taxonomy == []
    ensures r.Some? && TaxonomyKey in raw && raw[TaxonomyKey].Str? ==> r.value.taxonomy == [raw[TaxonomyKey].s]
    ensures r.Some? && TaxonomyKey in raw && raw[TaxonomyKey].List? ==> r.value.taxonomy == raw[TaxonomyKey].items
  {
    var merged := Merge(raw);
    if merged == ConfigDefaults then None
    else
      var taxonomy := match merged[TaxonomyKey] case Str(t) => [t] case List(ts) => ts;
      Some(Config(merged[PluginNameKey], taxonomy, merged - {PluginNameKey, TaxonomyKey}))
  }

  /**
   * The only submissions `check_config` turns away are those that add nothing to the defaults:
   * no key besides `plugin_name` and `taxonomy`, and each of those, when present, at its default.
   */
  lemma CheckConfigRejectsOnlyDefaults(raw: RawConfig)
    ensures CheckConfig(raw).None? <==>
      && raw.Keys <= {PluginNameKey, TaxonomyKey}
      && (PluginNameKey in raw ==> raw[PluginNameKey] == Str(""))
      && (TaxonomyKey in raw ==> raw[TaxonomyKey] == List([]))
  {
    var merged := Merge(raw);
    if raw.Keys <= {PluginNameKey, TaxonomyKey}
      && (PluginNameKey in raw ==> raw[PluginNameKey] == Str(""))
      && (TaxonomyKey in raw ==> raw[TaxonomyKey] == List([]))
    {
      assert merged == ConfigDefaults;
    }
  }

  /** A registrant that names no plugin but lists a taxonomy is accepted, under the empty name. */
  lemma NamelessConfigAccepted(taxonomy: string)
    ensures CheckConfig(map[TaxonomyKey := List([taxonomy])]) == Some(Config(Str(""), [taxonomy], map[]))
  {
    assert Merge(map[TaxonomyKey := List([taxonomy])])[TaxonomyKey] != ConfigDefaults[TaxonomyKey];
  }

  /** Any key besides the two defaults is enough to be accepted, and it is kept. */
  lemma ExtraKeyAccepted(key: string, v: Value)
    requires key != PluginNameKey && key != TaxonomyKey
    ensures CheckConfig(map[key := v]) == Some(Config(Str(""), [], map[key := v]))
  {
    var merged := Merge(map[key := v]);
    assert key in merged && merged != ConfigDefaults;
    assert merged - {PluginNameKey, TaxonomyKey} == map[key := v];
  }
}

=== FILE: decimal.dfy ===
/** Decimal rendering of term identifiers, as PHP interpolates an integer into a string. */
module Decimal {
  predicate IsDigit(c: char)
  {
    '0' <= c <= '9'
  }

  function DigitChar(d: nat): (c: char)
    requires d < 10
    ensures IsDigit(c) && c as int - '0' as int == d
  {
    ('0' as int + d) as char
  }

  /** The value a decimal digit character stands for (a non-digit counts as zero). */
  function DigitValue(c: char): nat
  {
    if IsDigit(c) then c as int - '0' as int else 0
  }

  /** The number a string of decimal digits denotes, most significant digit first. */
  function DecimalValue(s: string): nat
    decreases |s|
  {
    if s == [] then 0 else 10 * DecimalValue(s[..|s| - 1]) + DigitValue(s[|s| - 1])
  }

  /** The decimal digits of `n`, most significant first, without leading zeros. */
  function NatToString(n: nat): (s: string)
    ensures |s| >= 1
    ensures forall i :: 0 <= i < |s| ==> IsDigit(s[i])
    ensures n < 10 <==> |s| == 1
    ensures DecimalValue(s) == n
    ensures |s| > 1 ==> s[0] != '0'
  {
    if n < 10 then [DigitChar(n)] else NatToString(n / 10) + [DigitChar(n % 10)]
  }

  /** Distinct identifiers have distinct decimal renderings. */
  lemma NatToStringInjective(a: nat, b: nat)
    requires NatToString(a) == NatToString(b)
    ensures a == b
  {
    assert a == DecimalValue(NatToString(a));
  }

}

=== FILE: hooks.dfy ===
/**
 * The host's action and filter table, seen as an append-only log of bindings. Each closure the
 * plugin registers becomes a `Handler` value that carries the taxonomy it captured.
 */
module Hooks {
  datatype HookKind = Action | Filter

  /** What a registered callback does, with the taxonomy its closure captured. */
  datatype Handler =
    | CustomFields(taxonomy: string)          // render the three fields on the add/edit term screen
    | SaveCustomFields(taxonomy: string)      // persist the submitted fields of a created/edited term
    | Columns                                 // replace the admin list columns (captures no taxonomy)
    | CustomColumn(taxonomy: string)          // render the `color` / `image` admin list cells
    | MetaBox(taxonomy: string)               // swap the side metabox for the checkbox grid
    | SavePostTaxonomyTerms(taxonomy: string) // link the checked terms to a saved post
    | MediaUploadTabs
    | AttachmentFieldsToEdit
    | MediaSendToEditor

  /** One `add_action` / `add_filter` call: event name, callback, priority and accepted argument count. */
  datatype Binding = Binding(kind: HookKind, event: string, handler: Handler, priority: int, acceptedArgs: nat)

  /** `add_action($event, $callback)` with the host's default priority 10 and one argument. */
  function AddAction(event: string, handler: Handler): Binding
  {
    Binding(Action, event, handler, 10, 1)
  }

  /** Whether a handler's closure serves `taxonomy` (the columns filter serves every taxonomy alike). */
  predicate ServesTaxonomy(h: Handler, taxonomy: string)
  {
    match h
    case CustomFields(t) => t == taxonomy
    case SaveCustomFields(t) => t == taxonomy
    case Columns => true
    case CustomColumn(t) => t == taxonomy
    case MetaBox(t) => t == taxonomy
    case SavePostTaxonomyTerms(t) => t == taxonomy
    case MediaUploadTabs => false
    case AttachmentFieldsToEdit => false
    case MediaSendToEditor => false
  }

  /** The seven bindings `init` makes for one taxonomy before looking at post types. */
  function TermScreenBindings(taxonomy: string): (bs: seq<Binding>)
    ensures |bs| == 7
    ensures forall i :: 0 <= i < 7 ==> ServesTaxonomy(bs[i].handler, taxonomy) && !bs[i].handler.SavePostTaxonomyTerms?
  {
    [ AddAction(taxonomy + "_add_form_fields", CustomFields(taxonomy)),
      AddAction(taxonomy + "_edit_form_fields", CustomFields(taxonomy)),
      AddAction("created_" + taxonomy, SaveCustomFields(taxonomy)),
      AddAction("edited_" + taxonomy, SaveCustomFields(taxonomy)),
      Binding(Filter, "manage_edit-" + taxonomy + "_columns", Columns, 10, 1),
      Binding(Filter, "manage_" + taxonomy + "_custom_column", CustomColumn(taxonomy), 10, 3),
      AddAction("admin_menu", MetaBox(taxonomy)) ]
  }

  /** One `save_post_{type}` binding per post type, in the order the post types are listed. */
  function SavePostBindings(taxonomy: string, postTypes: seq<string>): (bs: seq<Binding>)
    ensures |bs| == |postTypes|
  {
    seq(|postTypes|, i requires 0 <= i < |postTypes| =>
      AddAction("save_post_" + postTypes[i], SavePostTaxonomyTerms(taxonomy)))
  }

  /** Everything `init` binds for one occurrence of `taxonomy` whose post types are `postTypes`. */
  function TaxonomyBindings(taxonomy: string, postTypes: seq<string>): seq<Binding>
  {
    TermScreenBindings(taxonomy) + SavePostBindings(taxonomy, postTypes)
  }

  /** The three filters `customize_media_uploader` installs at the start of `init`. */
  function MediaUploaderBindings(): (bs: seq<Binding>)
    ensures |bs| == 3
    ensures forall i :: 0 <= i < |bs| ==> bs[i].kind == Filter && forall t :: !ServesTaxonomy(bs[i].handler, t)
  {
    [ Binding(Filter, "media_upload_tabs", MediaUploadTabs, 10, 1),
      Binding(Filter, "attachment_fields_to_edit", AttachmentFieldsToEdit, 20, 2),
      Binding(Filter, "media_send_to_editor", MediaSendToEditor, 10, 3) ]
  }

  /**
   * One occurrence of a taxonomy yields seven bindings plus one `save_post_{type}` action per
   * post type, and every one of them serves that taxonomy; the first seven are never `save_post`
   * actions, so with no post types there are none.
   */
  lemma TaxonomyBindingsShape(taxonomy: string, postTypes: seq<string>)
    ensures var bs := TaxonomyBindings(taxonomy, postTypes);
      && |bs| == 7 + |postTypes|
      && (forall i :: 0 <= i < |bs| ==> ServesTaxonomy(bs[i].handler, taxonomy))
      && (forall i :: 0 <= i < 7 ==> !bs[i].handler.SavePostTaxonomyTerms?)
      && (forall i :: 0 <= i < |postTypes| ==> bs[7 + i] == AddAction("save_post_" + postTypes[i], SavePostTaxonomyTerms(taxonomy)))
  {
    var screen, saves := TermScreenBindings(taxonomy), SavePostBindings(taxonomy, postTypes);
    var bs := TaxonomyBindings(taxonomy, postTypes);
    assert bs == screen + saves;
    forall i | 0 <= i < |bs|
      ensures ServesTaxonomy(bs[i].handler, taxonomy)
      ensures i < 7 ==> !bs[i].handler.SavePostTaxonomyTerms?
    {
      if i < 7 {
        assert bs[i] == screen[i];
      } else {
        assert bs[i] == saves[i - 7];
      }
    }
    forall i | 0 <= i < |postTypes|
      ensures bs[7 + i] == AddAction("save_post_" + postTypes[i], SavePostTaxonomyTerms(taxonomy))
    {
      assert bs[7 + i] == saves[i];
    }
  }

  /** Appending one post type appends exactly its `save_post_{type}` binding. */
  lemma SavePostBindingsSnoc(taxonomy: string, postTypes: seq<string>, k: nat)
    requires k < |postTypes|
    ensures SavePostBindings(taxonomy, postTypes[..k + 1])
         == SavePostBindings(taxonomy, postTypes[..k]) + [AddAction("save_post_" + postTypes[k], SavePostTaxonomyTerms(taxonomy))]
  {
  }
}

=== FILE: media.dfy ===
/**
 * The three media-uploader filters installed by `customize_media_uploader`. Each acts only when
 * the request's `context` is the plugin's own, which is how the image picker of the term form
 * opens the host's media library.
 */
module MediaUploader {
  import opened Wrappers

  const Context := "znwp-taxonomy-color-image"

  /** `isset($a['context']) ? $a['context'] : ''` over the query string or the attachment fields. */
  function RequestContext(query: map<string, string>): string
  {
    if "context" in query then query["context"] else ""
  }

  /**
   * The `media_upload_tabs` filter: in the plugin's context the "from URL" and "gallery" tabs
   * are removed; otherwise the tabs pass through. No tab is ever added or changed.
   */
  function FilterMediaUploadTabs(tabs: map<string, string>, query: map<string, string>): (r: map<string, string>)
    ensures RequestContext(query) == Context ==> r.Keys == tabs.Keys - {"type_url", "gallery"}
    ensures RequestContext(query) != Context ==> r == tabs
    ensures forall k :: k in r ==> k in tabs && r[k] == tabs[k]
  {
    if RequestContext(query) == Context then tabs - {"type_url", "gallery"} else tabs
  }

  /** Filtering the tabs twice for the same request is filtering them once. */
  lemma FilterMediaUploadTabsIdempotent(tabs: map<string, string>, query: map<string, string>)
    ensures FilterMediaUploadTabs(FilterMediaUploadTabs(tabs, query), query) == FilterMediaUploadTabs(tabs, query)
  {
    if RequestContext(query) == Context {
      var once := FilterMediaUploadTabs(tabs, query);
      assert once - {"type_url", "gallery"} == once;
    }
  }

  /** A field of the attachment edit form. */
  datatype FormField =
    | HostField(html: string)
    | SubmitRow(attachmentId: nat)   // the "Use Image" button, named `send[{id}]`
    | HiddenInput(value: string)

  /**
   * The `attachment_fields_to_edit` filter: in the plugin's context the form gains a "Use Image"
   * submit row for the attachment and a hidden field carrying the context; otherwise it passes through.
   */
  function FilterAttachmentFields(fields: map<string, FormField>, attachmentId: nat, query: map<string, string>)
    : (r: map<string, FormField>)
    ensures RequestContext(query) != Context ==> r == fields
    ensures RequestContext(query) == Context ==>
      && r.Keys == fields.Keys + {"buttons", "context"}
      && r["buttons"] == SubmitRow(attachmentId)
      && r["context"] == HiddenInput(Context)
      && forall k :: k in fields && k != "buttons" && k != "context" ==> r[k] == fields[k]
  {
    if RequestContext(query) == Context
    then fields["buttons" := SubmitRow(attachmentId)]["context" := HiddenInput(Context)]
    else fields
  }

  /** What the `media_send_to_editor` filter does with the html the host is about to insert. */
  datatype SendOutcome =
    | HandBackToPicker(sendId: nat, url: string)   // echo a script filling in the term form, then exit
    | Passes(html: Option<string>)                 // return to the host; `None` is PHP's null

  /**
   * The `media_send_to_editor` filter as written: in the plugin's context it hands the chosen image
   * back to the term form and ends the request; in every other context the closure ends without
   * a `return`, so the filter yields null instead of the html.
   */
  function MediaSendToEditorAsWritten(html: string, sendId: nat, attachment: map<string, string>): (r: SendOutcome)
    ensures RequestContext(attachment) == Context <==> r.HandBackToPicker?
    ensures r.HandBackToPicker? ==> r.sendId == sendId && r.url == (if "url" in attachment then attachment["url"] else "")
    ensures r.Passes? ==> r.html.None?
  {
    if RequestContext(attachment) == Context
    then HandBackToPicker(sendId, if "url" in attachment then attachment["url"] else "")
    else Passes(None)
  }

  /** An ordinary insertion into a post (no plugin context) loses its html with the filter as written. */
  lemma MediaSendToEditorAsWrittenDropsHtml(html: string, sendId: nat)
    ensures MediaSendToEditorAsWritten(html, sendId, map[]) == Passes(None)
    ensures MediaSendToEditor(html, sendId, map[]) == Passes(Some(html))
  {
  }

  /**
   * The `media_send_to_editor` filter as evidently intended: the plugin's own context is handled
   * as before, and every other context gets the host's html back unchanged.
   */
  function MediaSendToEditor(html: string, sendId: nat, attachment: map<string, string>): (r: SendOutcome)
    ensures RequestContext(attachment) == Context <==> r.HandBackToPicker?
    ensures RequestContext(attachment) != Context ==> r == Passes(Some(html))
    ensures r.HandBackToPicker? ==> r == MediaSendToEditorAsWritten(html, sendId, attachment)
  {
    if RequestContext(attachment) == Context
    then HandBackToPicker(sendId, if "url" in attachment then attachment["url"] else "")
    else Passes(Some(html))
  }
}

=== FILE: plugin.dfy ===
/**
 * The plugin object itself (`ZnWP_Taxonomy_Color_Image`): its fields change in place during
 * `init` and whenever a taxonomy's post types are first asked for.
 */
module Plugin {
  import opened Wrappers
  import opened RegistrantConfig
  import opened Hooks
  import opened Sequences
  import opened Registry
  import TermMeta
  import AdminUi

  /**
   * The render callback of an added metabox: `generate_form_html` for the taxonomy over the terms
   * `meta_box` fetched beforehand, for whichever post is being edited when the box is shown.
   */
  datatype GridCallback = GridCallback(taxonomy: string, terms: seq<AdminUi.Term>)

  /** What `meta_box` asks the host to do for one post type. */
  datatype MetaBoxOp =
    | RemoveMetaBox(id: string, postType: string, context: string)
    | AddMetaBox(id: string, title: string, render: GridCallback, postType: string, context: string, priority: string)

  /** What an added metabox shows for a post whose current term ids are `current`. */
  function RenderGrid(render: GridCallback, current: set<nat>, attachments: map<string, string>): seq<AdminUi.Markup>
  {
    AdminUi.FormHtml(render.taxonomy, render.terms, current, attachments)
  }

  /** `get_taxonomy($t)->label`; null (rendered empty) for a taxonomy the host does not know. */
  function TaxonomyTitle(host: Host, taxonomy: string): string
  {
    if taxonomy in host then host[taxonomy].title else ""
  }

  /**
   * For each post type: drop both side metaboxes of the taxonomy, then add the checkbox-grid
   * metabox, which renders the grid over `terms`.
   */
  function MetaBoxOps(taxonomy: string, title: string, terms: seq<AdminUi.Term>, postTypes: seq<string>): (ops: seq<MetaBoxOp>)
    ensures |ops| == 3 * |postTypes|
    ensures forall i :: 0 <= i < |postTypes| ==>
      && ops[3 * i] == RemoveMetaBox("tagsdiv-" + taxonomy, postTypes[i], "side")
      && ops[3 * i + 1] == RemoveMetaBox(taxonomy + "div", postTypes[i], "side")
      && ops[3 * i + 2] == AddMetaBox(taxonomy + "div", title, GridCallback(taxonomy, terms), postTypes[i], "normal", "default")
    decreases |postTypes|
  {
    if postTypes == [] then []
    else
      var pt := postTypes[|postTypes| - 1];
      MetaBoxOps(taxonomy, title, terms, postTypes[..|postTypes| - 1]) +
      [ RemoveMetaBox("tagsdiv-" + taxonomy, pt, "side"),
        RemoveMetaBox(taxonomy + "div", pt, "side"),
        AddMetaBox(taxonomy + "div", title, GridCallback(taxonomy, terms), pt, "normal", "default") ]
  }

  /** One more post type adds its three operations at the end. */
  lemma MetaBoxOpsSnoc(taxonomy: string, title: string, terms: seq<AdminUi.Term>, postTypes: seq<string>, k: nat)
    requires k < |postTypes|
    ensures MetaBoxOps(taxonomy, title, terms, postTypes[..k + 1]) == MetaBoxOps(taxonomy, title, terms, postTypes[..k]) +
      [ RemoveMetaBox("tagsdiv-" + taxonomy, postTypes[k], "side"),
        RemoveMetaBox(taxonomy + "div", postTypes[k], "side"),
        AddMetaBox(taxonomy + "div", title, GridCallback(taxonomy, terms), postTypes[k], "normal", "default") ]
  {
    assert postTypes[..k + 1][..k] == postTypes[..k];
  }

  class TaxonomyColorImage {
    var configByPlugin: map<string, Config>
    var taxonomies: seq<string>
    var postTypesByTaxonomy: map<string, seq<string>>
    /** The host's action/filter table, as far as this object adds to it. */
    var hooks: seq<Binding>
    /** Every taxonomy the host has been asked about through the post-type cache, in order. */
    ghost var hostLookups: seq<string>

    /**
     * Taxonomies are remembered once each; through the post-type cache the host is asked about a
     * taxonomy at most once, and exactly the taxonomies it was asked about are cached. (`meta_box`
     * also asks the host for the taxonomy's label directly, outside the cache.)
     */
    ghost predicate Valid()
      reads this
    {
      && NoDuplicates(taxonomies)
      && NoDuplicates(hostLookups)
      && (forall t :: t in hostLookups <==> t in postTypesByTaxonomy)
    }

    function Snapshot(): State
      reads this
    {
      State(configByPlugin, taxonomies, postTypesByTaxonomy, hooks)
    }

    constructor ()
      ensures Valid() && Snapshot() == Fresh && hostLookups == []
    {
      configByPlugin := map[];
      taxonomies := [];
      postTypesByTaxonomy := map[];
      hooks := [];
      hostLookups := [];
    }

    /** `get_post_types_for_taxonomy`: ask the host on first use, answer from the cache afterwards. */
    method GetPostTypesForTaxonomy(taxonomy: string, host: Host) returns (postTypes: seq<string>)
      requires Valid()
      modifies this
      ensures Valid()
      ensures postTypes == PostTypesFor(old(postTypesByTaxonomy), taxonomy, host)
      ensures postTypesByTaxonomy == old(postTypesByTaxonomy)[taxonomy := postTypes]
      ensures hostLookups == if taxonomy in old(postTypesByTaxonomy) then old(hostLookups) else old(hostLookups) + [taxonomy]
      ensures configByPlugin == old(configByPlugin) && taxonomies == old(taxonomies) && hooks == old(hooks)
    {
      if taxonomy !in postTypesByTaxonomy {
        postTypesByTaxonomy := postTypesByTaxonomy[taxonomy := HostPostTypes(host, taxonomy)];
        hostLookups := hostLookups + [taxonomy];
      }
      postTypes := postTypesByTaxonomy[taxonomy];
    }

    /** `customize_media_uploader`: install the three media filters. */
    method CustomizeMediaUploader()
      modifies this
      ensures Snapshot() == old(Snapshot()).(hooks := old(hooks) + MediaUploaderBindings())
      ensures hostLookups == old(hostLookups)
    {
      hooks := hooks + MediaUploaderBindings();
    }

    /**
     * `init`: install the media filters, then for each registrant callback's result in hook order,
     * check it, store it under its plugin name, remember its taxonomies and bind their hooks.
     */
    method Init(submissions: seq<RawConfig>, host: Host)
      requires Valid()
      requires forall raw :: raw in submissions ==> NamedByString(raw)
      modifies this
      ensures Valid()
      ensures Snapshot() == Run(old(Snapshot()).(hooks := old(hooks) + MediaUploaderBindings()), submissions, host)
    {
      CustomizeMediaUploader();
      ghost var start := Snapshot();
      var i := 0;
      while i < |submissions|
        invariant 0 <= i <= |submissions|
        invariant Valid()
        invariant Snapshot() == Run(start, submissions[..i], host)
      {
        RunSnoc(start, submissions, i, host);
        RegisterSubmission(submissions[i], host);
        i := i + 1;
      }
      assert submissions[..|submissions|] == submissions;
    }

    /** The body of `init`'s registrant loop, for one callback's result. */
    method RegisterSubmission(raw: RawConfig, host: Host)
      requires Valid() && NamedByString(raw)
      modifies this
      ensures Valid()
      ensures Snapshot() == Register(old(Snapshot()), raw, host)
    {
      var config := CheckConfig(raw);
      if config.None? {
        return;
      }
      var c := config.value;
      var pluginName := c.pluginName.s;
      ghost var target := Accept(Snapshot(), c, host);
      configByPlugin := configByPlugin[pluginName := c];
      var ts := GetTaxonomies(Snapshot(), Some(pluginName));
      assert target == BindAll(Snapshot(), ts, host);
      BindTaxonomies(ts, host);
    }

    /** `init`'s taxonomy loop over one plugin's taxonomies, in order. */
    method BindTaxonomies(ts: seq<string>, host: Host)
      requires Valid()
      modifies this
      ensures Valid()
      ensures Snapshot() == BindAll(old(Snapshot()), ts, host)
    {
      ghost var start := Snapshot();
      var j := 0;
      while j < |ts|
        invariant 0 <= j <= |ts|
        invariant Valid()
        invariant Snapshot() == BindAll(start, ts[..j], host)
      {
        BindNext(start, ts, j, host);
        j := j + 1;
      }
      assert ts[..|ts|] == ts;
    }

    /** One pass of the taxonomy loop, seen as extending the loop over `ts[..j]` to `ts[..j + 1]`. */
    method BindNext(ghost start: State, ts: seq<string>, j: nat, host: Host)
      requires Valid() && j < |ts| && Snapshot() == BindAll(start, ts[..j], host)
      modifies this
      ensures Valid() && Snapshot() == BindAll(start, ts[..j + 1], host)
    {
      BindAllSnoc(start, ts, j, host);
      BindTaxonomyHooks(ts[j], host);
    }

    /** The body of `init`'s taxonomy loop: remember the taxonomy, add its seven hooks and one per post type. */
    method BindTaxonomyHooks(taxonomy: string, host: Host)
      requires Valid()
      modifies this
      ensures Valid()
      ensures Snapshot() == BindTaxonomy(old(Snapshot()), taxonomy, host)
    {
      if taxonomy !in taxonomies {
        taxonomies := taxonomies + [taxonomy];
      }
      var screen := TermScreenBindings(taxonomy);
      hooks := hooks + screen;
      var postTypes := GetPostTypesForTaxonomy(taxonomy, host);
      AddSavePostHooks(taxonomy, postTypes);
      AppendAssociates(old(hooks), screen, SavePostBindings(taxonomy, postTypes));
      assert postTypes == PostTypesFor(old(postTypesByTaxonomy), taxonomy, host);
    }

    /** The `save_post_{type}` loop of `init`: one action per post type, in order. */
    method AddSavePostHooks(taxonomy: string, postTypes: seq<string>)
      modifies this`hooks
      ensures hooks == old(hooks) + SavePostBindings(taxonomy, postTypes)
    {
      var k := 0;
      while k < |postTypes|
        invariant 0 <= k <= |postTypes|
        invariant hooks == old(hooks) + SavePostBindings(taxonomy, postTypes[..k])
      {
        SavePostBindingsSnoc(taxonomy, postTypes, k);
        hooks := hooks + [AddAction("save_post_" + postTypes[k], SavePostTaxonomyTerms(taxonomy))];
        k := k + 1;
      }
      assert postTypes[..|postTypes|] == postTypes;
    }

    /**
     * `meta_box`: for every post type of the taxonomy, the host is told to remove the two side
     * metaboxes and add the checkbox grid over the terms `get_taxonomy_terms` returns (as
     * written); the post types come through the cache. `options` and `hostTerms` are the
     * option store and the host's term list at that moment.
     */
    method MetaBox(taxonomy: string, host: Host, options: TermMeta.Options, hostTerms: seq<AdminUi.HostTerm>)
      returns (ops: seq<MetaBoxOp>)
      requires Valid()
      modifies this
      ensures Valid()
      ensures ops == MetaBoxOps(taxonomy, TaxonomyTitle(host, taxonomy), AdminUi.TaxonomyTermsAsWritten(options, taxonomy, hostTerms),
                                PostTypesFor(old(postTypesByTaxonomy), taxonomy, host))
      ensures postTypesByTaxonomy == old(postTypesByTaxonomy)[taxonomy := PostTypesFor(old(postTypesByTaxonomy), taxonomy, host)]
      ensures configByPlugin == old(configByPlugin) && taxonomies == old(taxonomies) && hooks == old(hooks)
    {
      var title := TaxonomyTitle(host, taxonomy);
      var terms := AdminUi.TaxonomyTermsAsWritten(options, taxonomy, hostTerms);
      var postTypes := GetPostTypesForTaxonomy(taxonomy, host);
      ops := MetaBoxLoop(taxonomy, title, terms, postTypes);
    }
  }

  /** The post-type loop of `meta_box`: three operations per post type, in order. */
  method MetaBoxLoop(taxonomy: string, title: string, terms: seq<AdminUi.Term>, postTypes: seq<string>)
    returns (ops: seq<MetaBoxOp>)
    ensures ops == MetaBoxOps(taxonomy, title, terms, postTypes)
  {
    ops := [];
    var k := 0;
    while k < |postTypes|
      invariant 0 <= k <= |postTypes|
      invariant ops == MetaBoxOps(taxonomy, title, terms, postTypes[..k])
    {
      MetaBoxOpsSnoc(taxonomy, title, terms, postTypes, k);
      ops := ops + [ RemoveMetaBox("tagsdiv-" + taxonomy, postTypes[k], "side"),
                     RemoveMetaBox(taxonomy + "div", postTypes[k], "side"),
                     AddMetaBox(taxonomy + "div", title, GridCallback(taxonomy, terms), postTypes[k], "normal", "default") ];
      k := k + 1;
    }
    assert postTypes[..|postTypes|] == postTypes;
  }

  /**
   * Where the undefined `$term_id` of `get_taxonomy_terms` shows: after a color is saved for term 7
   * of `category`, the grid an added metabox renders shows that term without it, while the same
   * grid over the corrected listing shows the saved color.
   */
  lemma MetaBoxGridLosesSavedColor(title: string, postType: string, current: set<nat>, attachments: map<string, string>)
    ensures var options := TermMeta.SavedOptions(map[], "category", 7, Some(map["color" := "#ffffff"]));
      var hostTerms := [AdminUi.HostTerm(7, "News")];
      var ops := MetaBoxOps("category", title, AdminUi.TaxonomyTermsAsWritten(options, "category", hostTerms), [postType]);
      var shown := AdminUi.Cells(RenderGrid(ops[2].render, current, attachments));
      var intended := AdminUi.Cells(AdminUi.FormHtml("category", AdminUi.TaxonomyTerms(options, "category", hostTerms), current, attachments));
      && |shown| == 1 && shown[0].Cell? && shown[0].termId == 7 && shown[0].color == ""
      && |intended| == 1 && intended[0].Cell? && intended[0].termId == 7 && intended[0].color == "#ffffff"
  {
    var options := TermMeta.SavedOptions(map[], "category", 7, Some(map["color" := "#ffffff"]));
    var hostTerms := [AdminUi.HostTerm(7, "News")];
    AdminUi.TaxonomyTermsAsWrittenLosesSavedColor();
    var asWritten := AdminUi.TaxonomyTermsAsWritten(options, "category", hostTerms);
    var intended := AdminUi.TaxonomyTerms(options, "category", hostTerms);
    var ops := MetaBoxOps("category", title, asWritten, [postType]);
    assert ops[2].render == GridCallback("category", asWritten);
    AdminUi.FormHtmlCells("category", asWritten, current, attachments);
    AdminUi.FormHtmlCells("category", intended, current, attachments);
    var shownCell := AdminUi.TermCell("category", asWritten[0], current, attachments);
    var intendedCell := AdminUi.TermCell("category", intended[0], current, attachments);
    assert shownCell.termId == 7 && shownCell.color == "";
    assert intendedCell.termId == 7 && intendedCell.color == "#ffffff";
  }

  /**
   * The bootstrap: a fresh object runs `init`. Afterwards the hooks are the media filters followed
   * by the bindings of every taxonomy occurrence of every accepted registrant, each remembered
   * taxonomy appears once, and through the post-type cache the host has been asked once about
   * exactly the accepted taxonomies.
   */
  method InitFromFresh(submissions: seq<RawConfig>, host: Host) returns (plugin: TaxonomyColorImage)
    requires forall raw :: raw in submissions ==> NamedByString(raw)
    ensures plugin.Valid()
    ensures plugin.Snapshot() == Run(Fresh.(hooks := MediaUploaderBindings()), submissions, host)
    ensures plugin.hooks == MediaUploaderBindings() + ExpectedHooks(submissions, host)
    ensures NoDuplicates(plugin.taxonomies) && Elems(plugin.taxonomies) == AcceptedTaxonomies(submissions)
    ensures NoDuplicates(plugin.hostLookups)
    ensures forall t :: t in plugin.hostLookups <==> t in AcceptedTaxonomies(submissions)
  {
    plugin := new TaxonomyColorImage();
    assert [] + MediaUploaderBindings() == MediaUploaderBindings();
    plugin.Init(submissions, host);
    RunHooks(Fresh.(hooks := MediaUploaderBindings()), submissions, host);
    RunTaxonomies(Fresh.(hooks := MediaUploaderBindings()), submissions, host);
  }
}

=== FILE: registry.dfy ===
/**
 * The plugin object: how `init` aggregates every registrant's configuration, remembers the
 * taxonomies, binds the per-taxonomy hooks, and memoises the post types of each taxonomy.
 */
module Registry {
  import opened Wrappers
  import opened RegistrantConfig
  import opened Hooks
  import opened Sequences

  predicate NoDuplicates(s: seq<string>)
  {
    forall i, j :: 0 <= i < j < |s| ==> s[i] != s[j]
  }

  function Elems(s: seq<string>): set<string>
  {
    set x | x in s
  }

  lemma ElemsSnoc(ts: seq<string>)
    requires ts != []
    ensures Elems(ts) == Elems(ts[..|ts| - 1]) + {ts[|ts| - 1]}
  {
    assert ts == ts[..|ts| - 1] + [ts[|ts| - 1]];
  }

  /** What the host's `get_taxonomy` returns for a registered taxonomy. */
  datatype TaxonomyObject = TaxonomyObject(title: string, objectType: seq<string>)

  /** The host's registered taxonomies; `get_taxonomy` answers `false` for any other name. */
  type Host = map<string, TaxonomyObject>

  /**
   * `get_taxonomy($t)->object_type`, or the empty list when it is empty, or when the taxonomy
   * is unknown (`false->object_type` is null).
   */
  function HostPostTypes(host: Host, taxonomy: string): seq<string>
  {
    if taxonomy in host then host[taxonomy].objectType else []
  }

  /** The object's fields: `config_by_plugin`, `taxonomies`, `post_types_by_taxonomy`, and the hooks it added. */
  datatype State = State(
    configByPlugin: map<string, Config>,
    taxonomies: seq<string>,
    postTypesByTaxonomy: map<string, seq<string>>,
    hooks: seq<Binding>)

  /** A new plugin object, before `init`: nothing configured, cached or bound. */
  const Fresh := State(map[], [], map[], [])

  /** `get_post_types_for_taxonomy`'s answer: the cached list if there is one, else the host's. */
  function PostTypesFor(cache: map<string, seq<string>>, taxonomy: string, host: Host): seq<string>
  {
    if taxonomy in cache then cache[taxonomy] else HostPostTypes(host, taxonomy)
  }

  /** `get_taxonomies($plugin_name)`: all remembered taxonomies, or one plugin's list, or none. */
  function GetTaxonomies(s: State, pluginName: Option<string>): (ts: seq<string>)
    ensures pluginName.None? ==> ts == s.taxonomies
    ensures pluginName.Some? && pluginName.value !in s.configByPlugin ==> ts == []
    ensures pluginName.Some? && pluginName.value in s.configByPlugin ==> ts == s.configByPlugin[pluginName.value].taxonomy
  {
    match pluginName
    case None => s.taxonomies
    case Some(n) => if n in s.configByPlugin then s.configByPlugin[n].taxonomy else []
  }

  /** `$this->taxonomies[$t] = $t`: a new name is appended, a known one keeps its place. */
  function Remember(taxonomies: seq<string>, taxonomy: string): (r: seq<string>)
    ensures taxonomies <= r && Elems(r) == Elems(taxonomies) + {taxonomy}
    ensures NoDuplicates(taxonomies) ==> NoDuplicates(r)
    ensures |r| == if taxonomy in taxonomies then |taxonomies| else |taxonomies| + 1
  {
    if taxonomy in taxonomies then taxonomies else taxonomies + [taxonomy]
  }

  /**
   * The body of `init`'s taxonomy loop, for one taxonomy: the configurations stay as they are,
   * the taxonomy is remembered and cached (an existing cache entry is kept, no other entry
   * changes), and bindings serving that taxonomy are appended, seven plus one per cached post type.
   */
  function BindTaxonomy(s: State, taxonomy: string, host: Host): (r: State)
    ensures r.configByPlugin == s.configByPlugin
    ensures taxonomy in r.taxonomies && s.taxonomies <= r.taxonomies
    ensures taxonomy in r.postTypesByTaxonomy
    ensures taxonomy in s.postTypesByTaxonomy ==> r.postTypesByTaxonomy == s.postTypesByTaxonomy
    ensures r.postTypesByTaxonomy == s.postTypesByTaxonomy[taxonomy := r.postTypesByTaxonomy[taxonomy]]
    ensures s.hooks <= r.hooks && |r.hooks| == |s.hooks| + 7 + |r.postTypesByTaxonomy[taxonomy]|
    ensures forall i :: |s.hooks| <= i < |r.hooks| ==> ServesTaxonomy(r.hooks[i].handler, taxonomy)
  {
    var postTypes := PostTypesFor(s.postTypesByTaxonomy, taxonomy, host);
    AppendedBindingsServe(s.hooks, taxonomy, postTypes);
    s.(taxonomies := Remember(s.taxonomies, taxonomy),
       postTypesByTaxonomy := s.postTypesByTaxonomy[taxonomy := postTypes],
       hooks := s.hooks + TaxonomyBindings(taxonomy, postTypes))
  }

  /** Appending one occurrence's bindings adds 7 + |postTypes| bindings, all serving the taxonomy. */
  lemma AppendedBindingsServe(hooks: seq<Binding>, taxonomy: string, postTypes: seq<string>)
    ensures var r := hooks + TaxonomyBindings(taxonomy, postTypes);
      && hooks <= r && |r| == |hooks| + 7 + |postTypes|
      && forall i :: |hooks| <= i < |r| ==> ServesTaxonomy(r[i].handler, taxonomy)
  {
    var added := TaxonomyBindings(taxonomy, postTypes);
    TaxonomyBindingsShape(taxonomy, postTypes);
    forall i | |hooks| <= i < |hooks| + |added|
      ensures ServesTaxonomy((hooks + added)[i].handler, taxonomy)
    {
      assert (hooks + added)[i] == added[i - |hooks|];
    }
  }

  /**
   * `init`'s taxonomy loop over `ts`, in order: it only appends to the remembered taxonomies and
   * to the hooks, only adds cache entries, and every looped name ends up remembered and cached.
   */
  function BindAll(s: State, ts: seq<string>, host: Host): (r: State)
    ensures s.taxonomies <= r.taxonomies && s.hooks <= r.hooks
    ensures s.postTypesByTaxonomy.Keys <= r.postTypesByTaxonomy.Keys
    ensures forall t :: t in s.postTypesByTaxonomy ==> r.postTypesByTaxonomy[t] == s.postTypesByTaxonomy[t]
    ensures Elems(ts) <= Elems(r.taxonomies) && Elems(ts) <= r.postTypesByTaxonomy.Keys
    decreases |ts|
  {
    if ts == [] then s
    else
      var prev := BindAll(s, ts[..|ts| - 1], host);
      ElemsSnoc(ts);
      assert Elems(prev.taxonomies) <= Elems(BindTaxonomy(prev, ts[|ts| - 1], host).taxonomies);
      BindTaxonomy(prev, ts[|ts| - 1], host)
  }

  /** The plugin name is a string whenever it is given, so that it can index `config_by_plugin`. */
  predicate NamedByString(raw: RawConfig)
  {
    PluginNameKey in raw ==> raw[PluginNameKey].Str?
  }

  /** Extending the taxonomy list by one runs the loop body once more. */
  lemma BindAllSnoc(s: State, ts: seq<string>, j: nat, host: Host)
    requires j < |ts|
    ensures BindAll(s, ts[..j + 1], host) == BindTaxonomy(BindAll(s, ts[..j], host), ts[j], host)
  {
    assert ts[..j + 1][..j] == ts[..j];
  }

  /**
   * Store an accepted config under its plugin name, then run the taxonomy loop over
   * `get_taxonomies(name)`: every taxonomy of the config is remembered afterwards, and the
   * remembered taxonomies and the hooks are only appended to.
   */
  function Accept(s: State, c: Config, host: Host): (r: State)
    requires c.pluginName.Str?
    ensures r.configByPlugin == s.configByPlugin[c.pluginName.s := c]
    ensures s.taxonomies <= r.taxonomies && s.hooks <= r.hooks
    ensures Elems(c.taxonomy) <= Elems(r.taxonomies)
  {
    var name := c.pluginName.s;
    var stored := s.(configByPlugin := s.configByPlugin[name := c]);
    BindAllKeepsConfigs(stored, c.taxonomy, host);
    BindAll(stored, GetTaxonomies(stored, Some(name)), host)
  }

  /**
   * One iteration of `init`'s registrant loop: a rejected submission changes nothing; an accepted
   * one is stored under its plugin name (the empty name when it gives none).
   */
  function Register(s: State, raw: RawConfig, host: Host): (r: State)
    requires NamedByString(raw)
    ensures CheckConfig(raw).None? ==> r == s
    ensures CheckConfig(raw).Some? ==>
      var name := if PluginNameKey in raw then raw[PluginNameKey].s else "";
      r.configByPlugin == s.configByPlugin[name := CheckConfig(raw).value]
    ensures s.taxonomies <= r.taxonomies && s.hooks <= r.hooks
  {
    match CheckConfig(raw)
    case None => s
    case Some(c) => Accept(s, c, host)
  }

  /** `init`'s registrant loop over the callbacks' results, in hook order (priority, then hash). */
  function Run(s: State, submissions: seq<RawConfig>, host: Host): (r: State)
    requires forall raw :: raw in submissions ==> NamedByString(raw)
    ensures s.taxonomies <= r.taxonomies && s.hooks <= r.hooks
    ensures s.configByPlugin.Keys <= r.configByPlugin.Keys
    decreases |submissions|
  {
    if submissions == [] then s
    else
      assert submissions[|submissions| - 1] in submissions;
      Register(Run(s, submissions[..|submissions| - 1], host), submissions[|submissions| - 1], host)
  }

  /** Extending the submissions by one runs the registrant loop body once more. */
  lemma RunSnoc(s: State, submissions: seq<RawConfig>, i: nat, host: Host)
    requires i < |submissions|
    requires forall raw :: raw in submissions ==> NamedByString(raw)
    ensures forall raw :: raw in submissions[..i] ==> NamedByString(raw)
    ensures NamedByString(submissions[i])
    ensures Run(s, submissions[..i + 1], host) == Register(Run(s, submissions[..i], host), submissions[i], host)
  {
    assert submissions[..i + 1][..i] == submissions[..i];
    assert submissions[i] in submissions;
  }

  // ---------------------------------------------------------------------------------------------
  // Reference definitions: what `init` should produce, written independently of the loop.

  /** The last submission in `submissions` that `check_config` accepts under plugin name `name`. */
  function LastAccepted(submissions: seq<RawConfig>, name: string): Option<Config>
    decreases |submissions|
  {
    if submissions == [] then None
    else
      var c := CheckConfig(submissions[|submissions| - 1]);
      if c.Some? && c.value.pluginName == Str(name) then c
      else LastAccepted(submissions[..|submissions| - 1], name)
  }

  /** The taxonomies one submission names if `check_config` accepts it, and none otherwise. */
  function SubmittedTaxonomies(raw: RawConfig): seq<string>
  {
    match CheckConfig(raw)
    case None => []
    case Some(c) => c.taxonomy
  }

  /** Every taxonomy named by an accepted submission, overwritten or not. */
  function AcceptedTaxonomies(submissions: seq<RawConfig>): set<string>
    decreases |submissions|
  {
    if submissions == [] then {}
    else AcceptedTaxonomies(submissions[..|submissions| - 1]) + Elems(SubmittedTaxonomies(submissions[|submissions| - 1]))
  }

  /** The hooks bound for a list of taxonomy occurrences, each with its post types from the host. */
  function OccurrenceHooks(ts: seq<string>, host: Host): seq<Binding>
    decreases |ts|
  {
    if ts == [] then []
    else OccurrenceHooks(ts[..|ts| - 1], host) + TaxonomyBindings(ts[|ts| - 1], HostPostTypes(host, ts[|ts| - 1]))
  }

  /** The hooks bound for every occurrence of a taxonomy in every accepted submission, in order. */
  function ExpectedHooks(submissions: seq<RawConfig>, host: Host): seq<Binding>
    decreases |submissions|
  {
    if submissions == [] then []
    else ExpectedHooks(submissions[..|submissions| - 1], host) + OccurrenceHooks(SubmittedTaxonomies(submissions[|submissions| - 1]), host)
  }

  /** How many bindings a list of occurrences adds: seven each, plus one per post type. */
  function HookCount(ts: seq<string>, host: Host): nat
    decreases |ts|
  {
    if ts == [] then 0 else HookCount(ts[..|ts| - 1], host) + 7 + |HostPostTypes(host, ts[|ts| - 1])|
  }

  /** Every cached post-type list is what the host reports for that taxonomy. */
  predicate CacheFaithful(cache: map<string, seq<string>>, host: Host)
  {
    forall t :: t in cache ==> cache[t] == HostPostTypes(host, t)
  }

  // ---------------------------------------------------------------------------------------------
  // Lemmas about the taxonomy loop.

  /** One taxonomy is remembered once, at the end if it is new. */
  lemma BindTaxonomyTaxonomies(s: State, taxonomy: string, host: Host)
    requires NoDuplicates(s.taxonomies)
    ensures var r := BindTaxonomy(s, taxonomy, host).taxonomies;
      NoDuplicates(r) && s.taxonomies <= r && Elems(r) == Elems(s.taxonomies) + {taxonomy}
  {
  }

  /** One taxonomy's bindings use the host's post types when the cache agrees with the host. */
  lemma BindTaxonomyKeepsCacheFaithful(s: State, taxonomy: string, host: Host)
    requires CacheFaithful(s.postTypesByTaxonomy, host)
    ensures var r := BindTaxonomy(s, taxonomy, host);
      && r.hooks == s.hooks + TaxonomyBindings(taxonomy, HostPostTypes(host, taxonomy))
      && CacheFaithful(r.postTypesByTaxonomy, host)
      && r.postTypesByTaxonomy.Keys == s.postTypesByTaxonomy.Keys + {taxonomy}
  {
  }

  lemma {:induction false} BindAllKeepsConfigs(s: State, ts: seq<string>, host: Host)
    ensures BindAll(s, ts, host).configByPlugin == s.configByPlugin
    decreases |ts|
  {
    if ts != [] {
      BindAllKeepsConfigs(s, ts[..|ts| - 1], host);
    }
  }

  /** The taxonomy loop keeps the remembered names duplicate-free, keeps the earlier ones in front, and adds exactly `ts`. */
  lemma {:induction false} BindAllTaxonomies(s: State, ts: seq<string>, host: Host)
    requires NoDuplicates(s.taxonomies)
    ensures var r := BindAll(s, ts, host).taxonomies;
      NoDuplicates(r) && s.taxonomies <= r && Elems(r) == Elems(s.taxonomies) + Elems(ts)
    decreases |ts|
  {
    if ts != [] {
      var init, last := ts[..|ts| - 1], ts[|ts| - 1];
      BindAllTaxonomies(s, init, host);
      BindTaxonomyTaxonomies(BindAll(s, init, host), last, host);
      ElemsSnoc(ts);
    }
  }

  /**
   * With a cache that agrees with the host, the taxonomy loop appends the bindings of every
   * occurrence, in order and without deduplication, and leaves the cache agreeing with the host.
   */
  lemma {:induction false} BindAllHooks(s: State, ts: seq<string>, host: Host)
    requires CacheFaithful(s.postTypesByTaxonomy, host)
    ensures var r := BindAll(s, ts, host);
      && r.hooks == s.hooks + OccurrenceHooks(ts, host)
      && CacheFaithful(r.postTypesByTaxonomy, host)
      && r.postTypesByTaxonomy.Keys == s.postTypesByTaxonomy.Keys + Elems(ts)
    decreases |ts|
  {
    if ts != [] {
      var init, last := ts[..|ts| - 1], ts[|ts| - 1];
      BindAllHooks(s, init, host);
      BindTaxonomyKeepsCacheFaithful(BindAll(s, init, host), last, host);
      AppendAssociates(s.hooks, OccurrenceHooks(init, host), TaxonomyBindings(last, HostPostTypes(host, last)));
      ElemsSnoc(ts);
    }
  }

  /** Each occurrence accounts for seven bindings plus one per post type. */
  lemma {:induction false} OccurrenceHooksCount(ts: seq<string>, host: Host)
    ensures |OccurrenceHooks(ts, host)| == HookCount(ts, host)
    decreases |ts|
  {
    if ts != [] {
      OccurrenceHooksCount(ts[..|ts| - 1], host);
      TaxonomyBindingsShape(ts[|ts| - 1], HostPostTypes(host, ts[|ts| - 1]));
    }
  }

  // ---------------------------------------------------------------------------------------------
  // Lemmas about the registrant loop.

  /** A submission `check_config` rejects leaves configs, taxonomies, cache and hooks as they were. */
  lemma RejectedSubmissionChangesNothing(s: State, submissions: seq<RawConfig>, raw: RawConfig, host: Host)
    requires forall r :: r in submissions ==> NamedByString(r)
    requires NamedByString(raw) && CheckConfig(raw).None?
    ensures Run(s, submissions + [raw], host) == Run(s, submissions, host)
  {
    assert (submissions + [raw])[..|submissions|] == submissions;
  }

  /**
   * After `init`, the config stored under a plugin name is the last accepted submission with that
   * name; a name no accepted submission uses keeps whatever it had before.
   */
  lemma {:induction false} RunLastWins(s: State, submissions: seq<RawConfig>, host: Host, name: string)
    requires forall raw :: raw in submissions ==> NamedByString(raw)
    ensures var r := Run(s, submissions, host).configByPlugin;
      match LastAccepted(submissions, name)
      case Some(c) => name in r && r[name] == c
      case None => (name in r <==> name in s.configByPlugin) && (name in r ==> r[name] == s.configByPlugin[name])
    decreases |submissions|
  {
    if submissions != [] {
      var init, raw := submissions[..|submissions| - 1], submissions[|submissions| - 1];
      assert raw in submissions;
      RunLastWins(s, init, host, name);
      var before := Run(s, init, host);
      match CheckConfig(raw)
      case None =>
      case Some(c) =>
        var stored := before.(configByPlugin := before.configByPlugin[c.pluginName.s := c]);
        BindAllKeepsConfigs(stored, c.taxonomy, host);
    }
  }

  /** One registrant adds the taxonomies it names, if accepted, to the remembered ones. */
  lemma RegisterTaxonomies(s: State, raw: RawConfig, host: Host)
    requires NamedByString(raw) && NoDuplicates(s.taxonomies)
    ensures var r := Register(s, raw, host).taxonomies;
      NoDuplicates(r) && s.taxonomies <= r && Elems(r) == Elems(s.taxonomies) + Elems(SubmittedTaxonomies(raw))
  {
    match CheckConfig(raw)
    case None =>
      assert Elems(SubmittedTaxonomies(raw)) == {};
    case Some(c) =>
      var stored := s.(configByPlugin := s.configByPlugin[c.pluginName.s := c]);
      BindAllTaxonomies(stored, c.taxonomy, host);
  }

  /** One registrant appends the bindings of the taxonomies it names, if accepted, and caches them. */
  lemma RegisterHooks(s: State, raw: RawConfig, host: Host)
    requires NamedByString(raw) && CacheFaithful(s.postTypesByTaxonomy, host)
    ensures var r := Register(s, raw, host);
      && r.hooks == s.hooks + OccurrenceHooks(SubmittedTaxonomies(raw), host)
      && CacheFaithful(r.postTypesByTaxonomy, host)
      && r.postTypesByTaxonomy.Keys == s.postTypesByTaxonomy.Keys + Elems(SubmittedTaxonomies(raw))
  {
    match CheckConfig(raw)
    case None =>
      assert OccurrenceHooks([], host) == [] && Elems(SubmittedTaxonomies(raw)) == {};
    case Some(c) =>
      var stored := s.(configByPlugin := s.configByPlugin[c.pluginName.s := c]);
      BindAllHooks(stored, c.taxonomy, host);
  }

  /**
   * After `init`, the remembered taxonomies hold each name once, keep the earlier ones in front,
   * and add exactly the taxonomies of every accepted submission, overwritten ones included.
   */
  lemma {:induction false} RunTaxonomies(s: State, submissions: seq<RawConfig>, host: Host)
    requires forall raw :: raw in submissions ==> NamedByString(raw)
    requires NoDuplicates(s.taxonomies)
    ensures var r := Run(s, submissions, host).taxonomies;
      NoDuplicates(r) && s.taxonomies <= r && Elems(r) == Elems(s.taxonomies) + AcceptedTaxonomies(submissions)
    decreases |submissions|
  {
    if submissions != [] {
      var init, raw := submissions[..|submissions| - 1], submissions[|submissions| - 1];
      assert raw in submissions;
      RunTaxonomies(s, init, host);
      RegisterTaxonomies(Run(s, init, host), raw, host);
    }
  }

  /**
   * Starting from a cache that agrees with the host (a fresh object's empty cache does), `init`
   * appends the bindings of every taxonomy occurrence of every accepted submission, and afterwards
   * the cache holds each such taxonomy with the host's post types.
   */
  lemma {:induction false} RunHooks(s: State, submissions: seq<RawConfig>, host: Host)
    requires forall raw :: raw in submissions ==> NamedByString(raw)
    requires CacheFaithful(s.postTypesByTaxonomy, host)
    ensures var r := Run(s, submissions, host);
      && r.hooks == s.hooks + ExpectedHooks(submissions, host)
      && CacheFaithful(r.postTypesByTaxonomy, host)
      && r.postTypesByTaxonomy.Keys == s.postTypesByTaxonomy.Keys + AcceptedTaxonomies(submissions)
    decreases |submissions|
  {
    if submissions != [] {
      var init, raw := submissions[..|submissions| - 1], submissions[|submissions| - 1];
      assert raw in submissions;
      RunHooks(s, init, host);
      RegisterHooks(Run(s, init, host), raw, host);
      AppendAssociates(s.hooks, ExpectedHooks(init, host), OccurrenceHooks(SubmittedTaxonomies(raw), host));
    }
  }

  /** A demo-style registrant (demo.php) binds `category` once, with its post types from the host. */
  lemma DemoRegistration(pluginName: string, host: Host)
    ensures var raw := map[PluginNameKey := Str(pluginName), TaxonomyKey := List(["category"])];
      var r := Run(Fresh, [raw], host);
      && r.configByPlugin == map[pluginName := Config(Str(pluginName), ["category"], map[])]
      && r.taxonomies == ["category"]
      && r.hooks == TaxonomyBindings("category", HostPostTypes(host, "category"))
  {
    var raw := map[PluginNameKey := Str(pluginName), TaxonomyKey := List(["category"])];
    var c := Config(Str(pluginName), ["category"], map[]);
    assert CheckConfig(raw) == Some(c) by {
      assert Merge(raw)[TaxonomyKey] != ConfigDefaults[TaxonomyKey];
      assert Merge(raw) - {PluginNameKey, TaxonomyKey} == map[];
    }
    assert Run(Fresh, [raw], host) == Register(Fresh, raw, host) by {
      assert [raw][..0] == [];
    }
    var stored := Fresh.(configByPlugin := map[pluginName := c]);
    assert Register(Fresh, raw, host) == BindAll(stored, ["category"], host);
    assert BindAll(stored, ["category"], host) == BindTaxonomy(stored, "category", host) by {
      assert ["category"][..0] == [];
    }
  }

  /**
   * Two registrants that list the same taxonomy get its hooks bound twice: bindings are not
   * deduplicated across occurrences (the remembered taxonomies are; see RunTaxonomies).
   */
  lemma RepeatedTaxonomyBindsTwice(name1: string, name2: string, taxonomy: string, host: Host)
    ensures var subs := [map[PluginNameKey := Str(name1), TaxonomyKey := Str(taxonomy)],
                         map[PluginNameKey := Str(name2), TaxonomyKey := Str(taxonomy)]];
      var r := Run(Fresh, subs, host);
      var once := TaxonomyBindings(taxonomy, HostPostTypes(host, taxonomy));
      r.hooks == once + once
  {
    var raw1 := map[PluginNameKey := Str(name1), TaxonomyKey := Str(taxonomy)];
    var raw2 := map[PluginNameKey := Str(name2), TaxonomyKey := Str(taxonomy)];
    var subs := [raw1, raw2];
    assert CheckConfig(raw1) == Some(Config(Str(name1), [taxonomy], map[])) by {
      assert Merge(raw1)[TaxonomyKey] != ConfigDefaults[TaxonomyKey];
      assert Merge(raw1) - {PluginNameKey, TaxonomyKey} == map[];
    }
    assert CheckConfig(raw2) == Some(Config(Str(name2), [taxonomy], map[])) by {
      assert Merge(raw2)[TaxonomyKey] != ConfigDefaults[TaxonomyKey];
      assert Merge(raw2) - {PluginNameKey, TaxonomyKey} == map[];
    }
    assert subs[..1] == [raw1] && [raw1][..0] == [] && [taxonomy][..0] == [];
    var once := TaxonomyBindings(taxonomy, HostPostTypes(host, taxonomy));
    assert OccurrenceHooks([taxonomy], host) == once;
    assert ExpectedHooks([raw1], host) == once by {
      assert ExpectedHooks([raw1], host) == ExpectedHooks([], host) + OccurrenceHooks([taxonomy], host);
    }
    assert ExpectedHooks(subs, host) == ExpectedHooks([raw1], host) + OccurrenceHooks([taxonomy], host);
    RunHooks(Fresh, subs, host);
  }
}

=== FILE: sequences.dfy ===
/** Small facts about sequences that the loop proofs use to regroup appended pieces. */
module Sequences {
  lemma AppendAssociates<T>(a: seq<T>, b: seq<T>, c: seq<T>)
    ensures (a + b) + c == a + (b + c)
  {
  }

  lemma LastSplit<T>(s: seq<T>)
    requires s != []
    ensures s == s[..|s| - 1] + [s[|s| - 1]]
  {
  }
}

=== FILE: term_meta.dfy ===
/**
 * Term metadata kept in the host's generic option store: one record per (taxonomy, term),
 * under the option name "{taxonomy}_term_{term_id}", holding `background_color`, `color`, `image_id`.
 */
module TermMeta {
  import opened Wrappers
  import opened Decimal

  /** One term's stored metadata: field name to submitted value. */
  type Meta = map<string, string>

  /** The host's option store, restricted to options whose value is a metadata record. */
  type Options = map<string, Meta>

  const FieldNames: seq<string> := ["background_color", "color", "image_id"]

  /** `$custom_field_defaults`: every field empty. */
  const FieldDefaults: Meta := map["background_color" := "", "color" := "", "image_id" := ""]

  const Separator := "_term_"

  /** The option name "{taxonomy}_term_{term_id}": the taxonomy, the separator, then the id's decimal digits. */
  function OptionKey(taxonomy: string, termId: nat): (key: string)
    ensures |key| > |taxonomy| + |Separator|
    ensures key[..|taxonomy|] == taxonomy && key[|taxonomy|..|taxonomy| + |Separator|] == Separator
    ensures forall i :: |taxonomy| + |Separator| <= i < |key| ==> IsDigit(key[i])
    ensures DecimalValue(key[|taxonomy| + |Separator|..]) == termId
    ensures |key| > |taxonomy| + |Separator| + 1 ==> key[|taxonomy| + |Separator|] != '0'
  {
    taxonomy + Separator + NatToString(termId)
  }

  /** Two keys that end in digit strings after the same separator split the same way. */
  lemma DigitSuffixNotShorter(t1: string, d1: string, t2: string, d2: string)
    requires forall i :: 0 <= i < |d2| ==> IsDigit(d2[i])
    requires t1 + Separator + d1 == t2 + Separator + d2
    ensures |d1| >= |d2|
  {
    var k := t1 + Separator + d1;
    var p := |k| - |d1| - 1;
    assert k[p] == '_';
    assert forall i :: |k| - |d2| <= i < |k| ==> k[i] == d2[i - (|k| - |d2|)];
    if |d1| < |d2| {
      assert false;
    }
  }

  /** Distinct (taxonomy, term) pairs never share an option, whatever the taxonomy names contain. */
  lemma OptionKeyInjective(t1: string, id1: nat, t2: string, id2: nat)
    requires OptionKey(t1, id1) == OptionKey(t2, id2)
    ensures t1 == t2 && id1 == id2
  {
    var d1, d2 := NatToString(id1), NatToString(id2);
    DigitSuffixNotShorter(t1, d1, t2, d2);
    DigitSuffixNotShorter(t2, d2, t1, d1);
    var k := OptionKey(t1, id1);
    assert d1 == k[|k| - |d1|..] == d2;
    assert t1 == k[..|k| - |d1| - |Separator|] == t2;
    NatToStringInjective(id1, id2);
  }

  /** `get_option($key, array())`: the stored record, or an empty one. */
  function StoredMeta(options: Options, key: string): Meta
  {
    if key in options then options[key] else map[]
  }

  /** `array_merge($custom_field_defaults, $stored)`: stored values win, missing fields read as empty. */
  function MergedMeta(stored: Meta): (m: Meta)
    ensures m.Keys == stored.Keys + FieldDefaults.Keys
    ensures forall f :: f in stored ==> m[f] == stored[f]
    ensures forall f :: f in FieldDefaults && f !in stored ==> m[f] == ""
  {
    FieldDefaults + stored
  }

  /**
   * The option store after `helper_save_custom_fields` with submitted `term_meta` (`None` when the
   * request carries no `term_meta` key): each submitted field overwrites, the others keep their
   * values, and no other option changes. A missing option with nothing submitted stays missing.
   */
  function SavedOptions(options: Options, taxonomy: string, termId: nat, submitted: Option<Meta>): (r: Options)
    ensures submitted.None? ==> r == options
    ensures forall key :: key != OptionKey(taxonomy, termId) ==>
      (key in r <==> key in options) && (key in r ==> r[key] == options[key])
    ensures submitted.Some? ==>
      var before, after := StoredMeta(options, OptionKey(taxonomy, termId)), StoredMeta(r, OptionKey(taxonomy, termId));
      && after.Keys == before.Keys + submitted.value.Keys
      && (forall f :: f in submitted.value ==> after[f] == submitted.value[f])
      && (forall f :: f in before && f !in submitted.value ==> after[f] == before[f])
  {
    match submitted
    case None => options
    case Some(d) =>
      var key := OptionKey(taxonomy, termId);
      if key !in options && d == map[] then options
      else options[key := StoredMeta(options, key) + d]
  }

  /** Saving the same submission twice leaves the store as saving it once. */
  lemma SaveIdempotent(options: Options, taxonomy: string, termId: nat, submitted: Option<Meta>)
    ensures var once := SavedOptions(options, taxonomy, termId, submitted);
      SavedOptions(once, taxonomy, termId, submitted) == once
  {
    if submitted.Some? {
      var key, d := OptionKey(taxonomy, termId), submitted.value;
      var once := SavedOptions(options, taxonomy, termId, submitted);
      if key in once {
        assert once[key] + d == once[key];
      }
    }
  }

  /** Saving one term's fields leaves what every other (taxonomy, term) reads unchanged. */
  lemma SaveLeavesOtherTermsAlone(options: Options, taxonomy: string, termId: nat, submitted: Option<Meta>,
                                  otherTaxonomy: string, otherId: nat)
    requires otherTaxonomy != taxonomy || otherId != termId
    ensures var key := OptionKey(otherTaxonomy, otherId);
      StoredMeta(SavedOptions(options, taxonomy, termId, submitted), key) == StoredMeta(options, key)
  {
    if OptionKey(otherTaxonomy, otherId) == OptionKey(taxonomy, termId) {
      OptionKeyInjective(otherTaxonomy, otherId, taxonomy, termId);
    }
  }

  /**
   * Two saves of the same term: the second write wins on the fields both submitted, and the
   * fields only the first submitted keep its values.
   */
  lemma SecondSaveWins(options: Options, taxonomy: string, termId: nat, first: Meta, second: Meta)
    ensures var key := OptionKey(taxonomy, termId);
      var after := StoredMeta(SavedOptions(SavedOptions(options, taxonomy, termId, Some(first)), taxonomy, termId, Some(second)), key);
      && (forall f :: f in second ==> after[f] == second[f])
      && (forall f :: f in first && f !in second ==> after[f] == first[f])
  {
  }

  /** The host's option store (`get_option` / `update_option`). */
  class OptionStore {
    var options: Options

    constructor (initial: Options)
      ensures options == initial
    {
      options := initial;
    }

    /** `get_option($key)`: `None` stands for the `false` the host returns for a missing option. */
    function GetOption(key: string): Option<Meta>
      reads this
    {
      if key in options then Some(options[key]) else None
    }

    /** `update_option($key, $value)` with an array value. */
    method UpdateOption(key: string, value: Meta)
      modifies this
      ensures options == old(options)[key := value]
    {
      options := options[key := value];
    }
  }

  /**
   * `helper_save_custom_fields($term_id, $taxonomy, $data)`; `data` is `$data['term_meta']` (or
   * `$_POST['term_meta']`), `None` when that key is not set.
   */
  method HelperSaveCustomFields(store: OptionStore, termId: nat, taxonomy: string, data: Option<Meta>)
    modifies store
    ensures store.options == SavedOptions(old(store.options), taxonomy, termId, data)
  {
    if data.None? {
      return;
    }
    var submitted := data.value;
    var key := OptionKey(taxonomy, termId);
    var stored := store.GetOption(key);
    // PHP's `$term_meta` is `false` until the first field is assigned into it.
    var isFalse := stored.None?;
    var termMeta := stored.GetOr(map[]);
    var pending := submitted.Keys;
    while pending != {}
      invariant pending <= submitted.Keys
      invariant isFalse <==> stored.None? && pending == submitted.Keys
      invariant termMeta == StoredMeta(store.options, key) + (map f | f in submitted.Keys - pending :: submitted[f])
      decreases pending
    {
      var f :| f in pending;
      termMeta := termMeta[f := submitted[f]];
      isFalse := false;
      pending := pending - {f};
    }
    assert (map f | f in submitted.Keys :: submitted[f]) == submitted;
    // Writing `false` back over a missing option is no change for `update_option`.
    if !isFalse {
      assert termMeta == StoredMeta(old(store.options), key) + submitted;
      assert key in old(store.options) || submitted != map[];
      store.UpdateOption(key, termMeta);
    } else {
      assert submitted.Keys == {};
      assert submitted == map[];
    }
  }
}

=== FILE: wrappers.dfy ===
/** Values that may be absent: an unset PHP array key, or the `false`/`null` a host lookup returns. */
module Wrappers {
  datatype Option<+T> = None | Some(value: T)
  {
    /** The wrapped value, or `default` when there is none (PHP's `isset($a[$k]) ? $a[$k] : default`). */
    function GetOr(default: T): T
    {
      match this
      case Some(v) => v
      case None => default
    }
  }
}
